=== FILE: README.md ===
# Protect with Atakama: a verified model of the executor core

This project models the core of the "Protect with Atakama" action service in Dafny. The BigID data-catalog platform calls the service with an action request. The service answers one of two actions:

- **"Encrypt"**: for every configured data source, it reads the catalog scan (`data-catalog?filter=system=<name>`). It keeps the rows whose labels match the source's label filter and whose path lies under its path filter. It groups the kept files by (share, parent directory). For each group whose directory exists on the SMB file server, it writes an `.ip-labels` sidecar holding the group's JSON. It counts data sources, sidecars written and per-group errors. It raises `ExecutionError` (HTTP 400) when no data source was processed or any group failed.
- **"Verify Config"**: it connects to every SMB data source, writes a probe file to the share and deletes it again.

Any other action name is refused with HTTP 400.

The configuration loader reads the version and the list of data-source declarations. It turns each valid `smb` declaration into a `DataSourceSmb` record. It records a warning for every unsupported or malformed declaration, after masking the credentials of that declaration in place. `DataSourceSmb.add_api_info` completes a record with the server, shares and domain that the platform reports. Its `repr` never shows the credentials. The `BigID` wrapper builds request URLs and headers, and the status payloads the platform expects.

Modules follow the program:

- `Wrappers`: `Option`/`Result`, and the text of `repr(KeyError(k))`.
- `PyStr`: the parts of Python's `str` the core uses: `split`, `join`, `lstrip`, `replace`, integer formatting.
- `PyDict`: an insertion-ordered Python dict.
- `PurePath`: POSIX `pathlib` parts, `relative_to`, `parent` and `str`.
- `BigIdApi`: `bigid_api.py`.
- `Configuration`: `config.py`. The `DataSourceSmb` and `Config` classes are updated in place. The list of declarations is an `array` that `_scrub_creds` rewrites.
- `SmbSession`: the remote file server as the executor sees it through an `Smb` session. It is a class whose state is a `World`: the directories and files on each host, a script of which remote calls raise, the connection flag and the log of calls sent.
- `Aggregation`: the row-by-row body of `_get_ip_labels` as pure functions, and what the resulting map holds.
- `Execution`: the `Executor` class. Its loops are proved against pure specification folds (`IpLabelsOf`, `WriteAll`, `VerifyAll`, `ExecuteSpec`).
- `ExecutionProperties`: what those folds guarantee.

Inputs from outside the core are parameters, collected in `Execution.Env`:

- the action name and the resolved data sources;
- the catalog answer for each request URL;
- the regular-expression engine;
- the JSON encoder;
- the random probe names;
- the `repr` of a remote exception;
- the completion payload.

## Model

| member | source | states |
|---|---|---|
| Wrappers.KeyErrorText | protect_with_atakama/config.py:104-107 | the text `repr(KeyError(k))` embeds the missing key verbatim, between `KeyError('` and `')` |
| PyStr.Split | protect_with_atakama/config.py:34 | `str.split(sep)` gives at least one piece and no piece contains the separator |
| PyStr.JoinSplit | protect_with_atakama/config.py:34 | joining the pieces of a split with the separator gives back the original string |
| PyStr.SplitJoin | protect_with_atakama/executor.py:69 | splitting a join of separator-free pieces gives back the pieces |
| PyStr.LStrip | protect_with_atakama/executor.py:57 | `lstrip(c)` removes exactly the leading run of `c`: the result is a suffix not starting with `c`, and everything dropped was `c` |
| PyStr.Replace | protect_with_atakama/executor.py:78 | `replace("\\", "/")` keeps the length and changes exactly the backslashes |
| PyStr.IntText | protect_with_atakama/executor.py:126 | a formatted count is a non-empty digit string without a leading zero |
| PyStr.IntTextRoundTrip | protect_with_atakama/executor.py:126 | reading the formatted count's digits back gives the count, so the error message reports the exact counters |
| PyStr.IntTextInjective | protect_with_atakama/executor.py:126 | different counts never print the same |
| PyDict.Dict.Put | protect_with_atakama/executor.py:80 | assignment stores the value; a new key goes to the end of the iteration order and an existing key keeps its place |
| PyDict.Empty | protect_with_atakama/executor.py:52 | a fresh dict is empty and has no items |
| PyDict.EmptyHasNoItems | protect_with_atakama/executor.py:96 | `not ip_labels` holds exactly when the map has no entries |
| PurePath.Names | protect_with_atakama/executor.py:69 | path names are never empty or `.`, and come from the split text |
| PurePath.Parts | protect_with_atakama/executor.py:69 | a path's parts are non-empty names without slashes after an optional root, and the root is there exactly when the text starts with `/` |
| PurePath.RelativeTo | protect_with_atakama/executor.py:72 | when `relative_to` succeeds, the base followed by the result is the path |
| PurePath.RelativeToWholeParts | protect_with_atakama/executor.py:69-75 | a path lies under a non-empty base exactly when the base's parts are the first parts of the path, compared whole part by part |
| PurePath.NamesKeepsNames | protect_with_atakama/executor.py:69 | plain names survive parsing unchanged |
| PurePath.PartsOfJoinedNames | protect_with_atakama/executor.py:69 | names joined with `/` parse back into the same parts |
| PurePath.PathFilterAdmitsSubdirectory | protect_with_atakama/executor.py:69-75 | the path filter `share/path` admits `share/path/to/file.txt`, leaving `to/file.txt` |
| PurePath.PathFilterRejectsSibling | protect_with_atakama/executor.py:69-75 | the path filter `share/path` does not admit `share/path2/file.txt` |
| BigIdApi.StatusNamesAreValues | protect_with_atakama/bigid_api.py:7-11 | each status's name is its value, and distinct statuses have distinct values |
| BigIdApi.NewBigID | protect_with_atakama/bigid_api.py:25-33 | construction succeeds exactly when all five parameters are present, otherwise it fails with the `KeyError` of the first missing one in the order `bigidBaseUrl`, `updateResultCallback`, `executionId`, `tpaId`, `bigidToken`; on success it keeps the URLs, ids and exactly the two headers |
| BigIdApi.MissingParamFails | protect_with_atakama/bigid_api.py:25-33 | removing any required parameter makes construction fail |
| BigIdApi.BigID.Url | protect_with_atakama/bigid_api.py:36 | a request URL is the base URL followed by the endpoint, nothing in between |
| BigIdApi.BigID.Get | protect_with_atakama/bigid_api.py:35-36 | a GET of the endpoint's URL with the stored headers and no body |
| BigIdApi.BigID.Post | protect_with_atakama/bigid_api.py:38-39 | a POST of the endpoint's URL with the stored headers and the data as body |
| BigIdApi.BigID.Put | protect_with_atakama/bigid_api.py:41-42 | a PUT of the endpoint's URL with the stored headers and the data as body |
| BigIdApi.RequestsShareTarget | protect_with_atakama/bigid_api.py:35-42 | get, post and put of one endpoint target the same URL with the same headers |
| BigIdApi.BigID.GenerateResponse | protect_with_atakama/bigid_api.py:44-50 | the response has exactly four keys: the execution id, the status name, the progress and the message |
| Configuration.GetOr | protect_with_atakama/config.py:95-96 | `dict.get(k, default)` gives the stored value of a present key and the default otherwise |
| Configuration.DataSourceSmb.constructor | protect_with_atakama/config.py:20-30 | a new record holds the given fields, with server and domain empty and no shares |
| Configuration.DataSourceSmb.AddApiInfo | protect_with_atakama/config.py:32-35 | without `smbServer` it raises `KeyError('smbServer')` and changes nothing; otherwise it sets the server, the shares split on commas (`[""]` when absent) and the domain (empty when absent), and leaves the other fields alone |
| Configuration.SharesRoundTrip | protect_with_atakama/config.py:34 | the shares joined with commas give back `sharedResource`; an absent one gives one empty share |
| Configuration.ReprListsFieldsInOrder | protect_with_atakama/config.py:37-44 | the repr lists `name`, `kind`, `label_filter`, `path_filter`, `server`, `domain`, `shares` as `key=repr(value)`, in declaration order |
| Configuration.ShownInOrder | protect_with_atakama/config.py:38-42 | walking the nine dataclass fields in declaration order keeps all but `username` and `password`, in that order |
| Configuration.ShownSkips | protect_with_atakama/config.py:41 | a credential field contributes nothing to the repr |
| Configuration.ShownKeeps | protect_with_atakama/config.py:39-41 | any other field contributes its `key=repr(value)` in front of the rest |
| Configuration.ReprIgnoresCredentials | protect_with_atakama/config.py:37-44 | the repr is the same whatever the username and password |
| Configuration.Scrubbed | protect_with_atakama/config.py:109-113 | scrubbing keeps the keys, masks `username` and `password` where present, and leaves every other value alone |
| Configuration.MaskKeysStep | protect_with_atakama/config.py:111-113 | masking one more key masks it only when present |
| Configuration.Config.ScrubCreds | protect_with_atakama/config.py:109-113 | the loop over the two credential keys rewrites the chosen declaration in place to its scrubbed form, and no other declaration changes |
| Configuration.ParseEntryLoads | protect_with_atakama/config.py:87-107 | a declaration loads exactly when it has `kind` = `smb`, `name`, `username` and `password`; the label filter defaults to `.*` and the path filter to empty; another kind gives the warning `unsupported data source: None`; a missing `kind`, or a missing `name`, `username` or `password` of an `smb` declaration, gives `failed to parse data source: None ex: KeyError('<key>')` for the first missing key in that order |
| Configuration.LoadCounts | protect_with_atakama/config.py:86-107 | every declaration gives either one record or one warning, and the records are as many as the valid declarations |
| Configuration.RecordOrWarning | protect_with_atakama/config.py:86-107 | one declaration yields exactly one of a record (when it parses) or a warning |
| Configuration.WarningsIgnoreCredentials | protect_with_atakama/config.py:102-107 | the warnings, and the scrubbed form of each rejected declaration, do not depend on the credentials |
| Configuration.SameButCredentialsAlike | protect_with_atakama/config.py:102-107 | two declarations differing only in credentials get the same scrubbed form and the same warning |
| Configuration.LoadStep | protect_with_atakama/config.py:87-107 | one more declaration adds its record or warning at the end, and rewrites only that declaration |
| Configuration.Config.Warn | protect_with_atakama/config.py:82-84 | a warning is appended at the end; the records and version are unchanged |
| Configuration.Config.LoadEntry | protect_with_atakama/config.py:88-107 | one declaration appends its record or its warning and scrubs it in place only when it is rejected |
| Configuration.Config.LoadDataSources | protect_with_atakama/config.py:86-107 | the loop appends the valid records in order and one warning per rejected declaration in order, scrubs exactly the rejected declarations and keeps the version |
| Configuration.Config.constructor | protect_with_atakama/config.py:66-72 | a new configuration keeps the version and holds exactly the records and warnings of the declarations, which are left scrubbed where rejected |
| Configuration.NewConfig | protect_with_atakama/config.py:66-72 | a missing `version` or `data_sources` raises its `KeyError`, which is not caught, and leaves the declarations untouched; otherwise the configuration stores the version, loads the records and warnings, and leaves each rejected declaration scrubbed in place |
| SmbSession.SmbServer.Connect | protect_with_atakama/smb_api.py:18-26 | entering the session connects to the data source's server or raises "Failed to connect", leaving no connection open |
| SmbSession.SmbServer.IsDir | protect_with_atakama/executor.py:104 | `is_dir` answers whether the directory exists on the connected host, or raises |
| SmbSession.SmbServer.AtomicWrite | protect_with_atakama/executor.py:110-112 | `atomic_write` either raises and changes no file, or leaves exactly the new bytes at `path/name` |
| SmbSession.SmbServer.WriteFile | protect_with_atakama/smb_api.py:39-43 | `write_file` either raises and changes no file, or stores the bytes at the path |
| SmbSession.SmbServer.DeleteFile | protect_with_atakama/executor.py:49 | `delete_file` removes the file, or raises when the call fails or there is no such file |
| SmbSession.SmbServer.Close | protect_with_atakama/smb_api.py:28-31 | leaving the session closes the connection and never raises |
| Aggregation.FilterLabels | protect_with_atakama/executor.py:64 | every kept label matches the filter |
| Aggregation.FilterLabelsCounts | protect_with_atakama/executor.py:64 | each matching label is kept as often as it occurs, and no other label is kept |
| Aggregation.FilterLabelsAppend | protect_with_atakama/executor.py:64 | filtering keeps the labels' order |
| Aggregation.ClassifySurvives | protect_with_atakama/executor.py:60-82 | a row is stored exactly when it has labels, some label matches, its path lies under the path filter (if any) and under its share, and it has a name; it is stored under (share, parent directory with `/`) and its name, with the matching labels |
| Aggregation.Insert | protect_with_atakama/executor.py:80 | a skipped row changes nothing; otherwise the file's labels are stored in its group |
| Aggregation.InsertFrame | protect_with_atakama/executor.py:80 | storing one file leaves every other file's labels as they were |
| Aggregation.Classified | protect_with_atakama/executor.py:60 | each row gets its own outcome, in row order |
| Aggregation.ClassifiedAppend | protect_with_atakama/executor.py:60 | rows are classified independently of their neighbours |
| Aggregation.AggregateStep | protect_with_atakama/executor.py:60-82 | one more row is one more loop body applied to the map built so far |
| Aggregation.CollectEmptyIff | protect_with_atakama/executor.py:96 | the map is empty exactly when every outcome was a skip |
| Aggregation.CollectStoredIff | protect_with_atakama/executor.py:80 | a file is in a group exactly when some outcome stored it there |
| Aggregation.CollectSnoc | protect_with_atakama/executor.py:60-80 | one more scan row adds its outcome on top of what the earlier rows built |
| Aggregation.InsertStores | protect_with_atakama/executor.py:80 | after storing an outcome a file is in a group exactly when it was before or the outcome put it there |
| Aggregation.CollectLastWins | protect_with_atakama/executor.py:80 | a file's labels are those of the last outcome that stored it |
| Aggregation.CollectSkipNeutral | protect_with_atakama/executor.py:81-82 | a skipped outcome leaves the map as it was |
| Aggregation.AggregateEmptyIff | protect_with_atakama/executor.py:60-98 | there are no ip-labels exactly when every row is skipped |
| Aggregation.StoredIffSomeRowHits | protect_with_atakama/executor.py:60-82 | a file appears in a group exactly when some surviving row has that share, directory and name |
| Aggregation.LastRowWins | protect_with_atakama/executor.py:77-80 | for a duplicate file, the labels of the last surviving row win |
| Aggregation.SkippedRowIsNeutral | protect_with_atakama/executor.py:61-82 | a skipped or malformed row does not affect the result, and the rows after it are still processed |
| Execution.IpLabelsOf | protect_with_atakama/executor.py:51-85 | the map of ip-labels is well formed: every group key in iteration order, no duplicates |
| Execution.WriteGroupsStep | protect_with_atakama/executor.py:102-118 | one more group is one more pass of the group loop |
| Execution.AbortSticks | protect_with_atakama/executor.py:92-101 | once an exception escapes a data source, no later data source is processed |
| Execution.StopSticks | protect_with_atakama/executor.py:38-49 | once an exception escapes the probe of a data source, no later data source is probed |
| Execution.Executor.constructor | protect_with_atakama/executor.py:21-22 | the executor holds the API wrapper and the file servers it is given |
| Execution.NewExecutor | protect_with_atakama/executor.py:21-22 | a request without the required parameters fails with the `KeyError`, sent back as HTTP 500; otherwise the executor wraps the constructed API |
| Execution.Executor.Execute | protect_with_atakama/executor.py:24-35 | "Encrypt" and "Verify Config" run their loops and then answer the completion payload unless they raise; any other name raises `ExecutionError(400, "unrecognized action name: …")` |
| Execution.Executor.VerifyConfig | protect_with_atakama/executor.py:37-49 | the probe loop leaves the file servers as the probes of the data sources in order leave them, and reports the exception that stops it |
| Execution.Executor.GetIpLabels | protect_with_atakama/executor.py:51-85 | the row loop with its `continue`s and caught exceptions yields exactly the ip-labels of the scan; a missing `totalRowsCounter` or a bad pattern raises |
| Execution.Executor.ClassifyRow | protect_with_atakama/executor.py:61-82 | the loop body with its `continue`s yields exactly the row's outcome: skipped when the row has no label list (the `except` path), when no label survives or when the path is outside the filter, else the group and file it lands in |
| Execution.Executor.WriteIpLabels | protect_with_atakama/executor.py:87-127 | the data-source loop with its counters ends in the verdict of the writes in order: "No data sources processed", "Failed to write E of W files", an escaped exception, or success |
| Execution.Executor.WriteDataSource | protect_with_atakama/executor.py:92-118 | one data source is counted and scanned, and when it has groups they are written in one session that is closed afterwards |
| Execution.Executor.WriteGroupsIn | protect_with_atakama/executor.py:102-118 | the group loop writes the groups in insertion order |
| Execution.Executor.WriteOneGroup | protect_with_atakama/executor.py:103-118 | one group: a raising `is_dir` or `atomic_write` counts an error, a missing directory is skipped, a write counts one sidecar |
| ExecutionProperties.SidecarInjective | protect_with_atakama/executor.py:110-112 | distinct groups never share a sidecar location |
| ExecutionProperties.WriteGroupsCounts | protect_with_atakama/executor.py:102-118 | the group loop counts at most one outcome per group and keeps the session, directories and earlier call log |
| ExecutionProperties.WriteGroupCounts | protect_with_atakama/executor.py:103-118 | one group counts at most one written sidecar or one error, sends at least one request and keeps the session, directories and earlier call log |
| ExecutionProperties.ReliableWriteGroups | protect_with_atakama/executor.py:102-118 | without remote failures no error is counted and exactly the groups whose directory exists are written |
| ExecutionProperties.SidecarsHoldGroups | protect_with_atakama/executor.py:102-113 | without remote failures each existing group directory holds its group's JSON in `.ip-labels`, and every other file is untouched |
| ExecutionProperties.RunningCountsEverySource | protect_with_atakama/executor.py:92-93 | every data source the loop gets through is counted, whatever happened to it |
| ExecutionProperties.NoLabelsNoSession | protect_with_atakama/executor.py:95-98 | a data source without ip-labels is counted and opens no session |
| ExecutionProperties.EncryptLeavesNoSessionOpen | protect_with_atakama/executor.py:101-118 | "Encrypt" never leaves a session open, whether it finishes or stops |
| ExecutionProperties.ReliableWriteAll | protect_with_atakama/executor.py:92-118 | without remote failures and with usable scans every data source is processed and no error is counted |
| ExecutionProperties.ReliableWriteLabels | protect_with_atakama/executor.py:95-118 | without remote failures the writing for one data source keeps running, counts no error and leaves the server reliable |
| ExecutionProperties.EncryptCompletesIffSources | protect_with_atakama/executor.py:120-127 | a reliable "Encrypt" completes exactly when there is a data source, and otherwise fails with "No data sources processed" |
| ExecutionProperties.NoSourcesRefused | protect_with_atakama/executor.py:120-121 | "Encrypt" with no data sources fails with 400 "No data sources processed" whatever the file servers do, and sends no request |
| ExecutionProperties.ErrorsAreReported | protect_with_atakama/executor.py:123-127 | any counted error fails the action with the error count and the count of sidecars written |
| ExecutionProperties.CleanRunCompletes | protect_with_atakama/executor.py:120-127 | a finished run with a data source and no error answers the completion payload |
| ExecutionProperties.UnknownActionRefused | protect_with_atakama/executor.py:29-33 | any other action name is refused with HTTP 400 before anything is sent |
| ExecutionProperties.VerifyLeavesFilesIntact | protect_with_atakama/executor.py:37-49 | a reliable "Verify Config" with unused probe names finishes, leaves every file as it was and closes every session |
| ExecutionProperties.VerifySkipsOtherKinds | protect_with_atakama/executor.py:43 | a data source of another kind is passed over without a request |
| ExecutionProperties.GroupOutcomes | protect_with_atakama/executor.py:103-118 | one group case by case: a raising `is_dir` or `atomic_write` counts an error and changes no file, a missing directory changes nothing, and a write counts one and leaves exactly the encoded group in the sidecar |
| ExecutionProperties.ProbeCalls | protect_with_atakama/executor.py:46-49 | a reliable probe sends exactly, whatever already sits at the probe name: connect with the source's credentials, write the probe to `share-name`, delete the same name, close |

## Left out

- Network I/O: the HTTP requests `BigID.get/post/put` send are modelled as `Request` values. A catalog answer is a parameter (`Env.catalog`), looked up by the request URL.
- HTTP status mapping: `resources.py` turns an `ExecutionError` into its status and any other exception into HTTP 500. The model stops at `Execution.Fault`. Falcon routing (`app.py`, `resources.py`) is not part of this model.
- `BigID.action_name`, `BigID.data_sources()` and `BigID.get_progress_completed()` are used by `executor.py` but not defined in `bigid_api.py`. The action name, the resolved data sources and the completion payload are inputs in `Env`. The resolution of data sources against the platform's registry is not part of this model.
- `ExecutionError` is imported from `utils.py` but not defined there. It is modelled as a status and a message.
- `Smb` is called with four arguments (username, password, server, domain), while `smb_api.py` takes three. `smb_api.py` also has no `is_dir`, `atomic_write` or `delete_file`. The model follows the interface `executor.py` uses: a four-argument session with those calls. It does not model the `TypeError` that the three-argument constructor would raise.
- The SMB transport (pysmb, temporary files, the temp-name-and-rename steps inside `atomic_write`) is not modelled. Each remote call either succeeds with its documented effect or raises, as a fault script decides.
- SmbSession.SmbServer.WriteFile: a failed `write_file` is modelled as leaving the files unchanged. `smb_api.py` uploads straight to the target path with `storeFile`, so an upload that fails after the remote open could leave an empty or truncated file, or the old contents overwritten; the model does not capture that partial state.
- SmbSession.SmbServer.AtomicWrite: a failed `atomic_write` is modelled as leaving the target untouched. `atomic_write` is not defined in `smb_api.py`; a composite of temporary write, delete and rename could leave the target deleted or a temporary file behind when it fails part-way, and the model does not capture that.
- ExecutionProperties.GroupOutcomes: its "a raising `atomic_write` changes no file" half rests on the all-or-nothing `atomic_write` above, not on code in the repository.
- Regular expressions are abstract: `Regex.compiles`, `Regex.matches` and `Regex.error` are parameters. `re.I` case folding is whatever the parameter does.
- JSON: `json.dumps(files, indent=4).encode()` is the parameter `Env.encode`. `json.loads` of the configuration text is not modelled. The configuration arrives as a version and a list of declarations.
- Configuration values are strings. Non-string values (a numeric name, a nested object) and declarations that are not dicts are not modelled.
- `os.urandom(16).hex()` probe names are the parameter `Env.probe`. The exception text of a failed remote write or delete is `Env.remoteError`.
- Logging is left out: every `log.*` call only writes a log line.
- Scan rows: a `results` value of JSON `null` and label lists holding non-strings are not modelled. Rows carry optional string fields.
- `pathlib`: only the POSIX flavour is modelled. `Path(...)` on a POSIX host behaves as `PurePosixPath`.
- `repr` of strings escapes ASCII control characters, backslashes and quotes. Non-printable characters outside ASCII are kept as they are, where Python would escape them.
- `progress` in `generate_response` is a Dafny `real`, not a binary float.
- Behaviours of the code worth knowing:
  - the sidecar holds `{"files": {name: {"labels": [...]}}}`;
  - there is no bound on the number of configuration warnings;
  - an unknown action name raises at once;
  - "Verify Config" probes the fixed share `share-name` and stops at the first exception;
  - the "of Y files" count in the failure message counts only the sidecars written.

=== FILE: aggregation.dfy ===
/** What `Executor._get_ip_labels` computes from one data source's catalog
    rows: the surviving rows grouped by (share, parent directory), each group
    a `{"files": {objectName: {"labels": [...]}}}` record. This module is the
    specification the imperative loop in module Execution is proved against. */
module Aggregation {
  import opened Wrappers
  import opened PyStr
  import opened PyDict
  import opened PurePath

  /** One row of the data-catalog answer. Each key the code reads may be
      absent (`None`). */
  datatype Row = Row(
    attribute: Option<seq<string>>,
    fullObjectName: Option<string>,
    containerName: Option<string>,
    objectName: Option<string>)

  /** The filters in force for one data source: the label pattern (compiled
      case-insensitively), the path filter with its leading slashes already
      stripped, and the regex engine's match-at-start test. */
  datatype RowFilter = RowFilter(pattern: string, path: string, matches: (string, string) -> bool)

  /** A group key: (share, directory relative to the share, `/`-separated). */
  type Key = (string, string)

  /** The value under `"files"`: objectName to labels. */
  type Files = Dict<string, seq<string>>

  /** The whole result, keyed by group, in first-insertion order. */
  type IpLabels = Dict<Key, Files>

  /** What a surviving row stores: `ip_labels[key]["files"][name] = {"labels": labels}`. */
  datatype Entry = Entry(key: Key, name: string, labels: seq<string>)

  /** `[l for l in labels if label_filter.match(l)]`. */
  function FilterLabels(labels: seq<string>, f: RowFilter): (r: seq<string>)
    ensures forall i :: 0 <= i < |r| ==> f.matches(f.pattern, r[i])
    ensures |r| <= |labels|
  {
    if |labels| == 0 then []
    else
      var rest := FilterLabels(labels[1..], f);
      assert labels == [labels[0]] + labels[1..];
      if f.matches(f.pattern, labels[0]) then [labels[0]] + rest else rest
  }

  /** The filter keeps every matching label as often as it occurs, and no other. */
  lemma {:induction false} FilterLabelsCounts(labels: seq<string>, f: RowFilter, l: string)
    ensures multiset(FilterLabels(labels, f))[l] == (if f.matches(f.pattern, l) then multiset(labels)[l] else 0)
  {
    if |labels| > 0 {
      FilterLabelsCounts(labels[1..], f, l);
      assert labels == [labels[0]] + labels[1..];
      assert multiset(labels) == multiset([labels[0]]) + multiset(labels[1..]);
    }
  }

  /** The filter keeps the original order: filtering distributes over concatenation. */
  lemma {:induction false} FilterLabelsAppend(a: seq<string>, b: seq<string>, f: RowFilter)
    ensures FilterLabels(a + b, f) == FilterLabels(a, f) + FilterLabels(b, f)
  {
    if |a| > 0 {
      FilterLabelsAppend(a[1..], b, f);
      assert (a + b)[1..] == a[1..] + b;
      assert (a + b)[0] == a[0];
      var tail := FilterLabels(a[1..], f);
      if f.matches(f.pattern, a[0]) {
        assert FilterLabels(a, f) == [a[0]] + tail;
        assert FilterLabels(a + b, f) == [a[0]] + (tail + FilterLabels(b, f));
      } else {
        assert FilterLabels(a, f) == tail;
        assert FilterLabels(a + b, f) == tail + FilterLabels(b, f);
      }
    } else {
      assert a + b == b;
    }
  }

  /** The directory part of a group key: the parent of the path relative to
      the share, with backslashes turned into slashes. */
  function DirText(rel: seq<string>): string
  {
    Replace(ParentText(rel), '\\', '/')
  }

  /** What one row contributes, or `None` when the loop skips it: no label
      matches (a missing `attribute` raises while iterating and is logged), the
      path filter rejects the path, or a key is missing or the path is not
      under the share (raises inside the loop body and is logged). */
  function Classify(row: Row, f: RowFilter): Option<Entry>
  {
    if row.attribute.None? then None
    else
      var kept := FilterLabels(row.attribute.value, f);
      if kept == [] then None
      else if row.fullObjectName.None? then None
      else
        var full := Parts(row.fullObjectName.value);
        if f.path != "" && RelativeTo(full, Parts(f.path)).None? then None
        else if row.containerName.None? then None
        else
          var share := row.containerName.value;
          match RelativeTo(full, Parts(share))
          case None => None
          case Some(rel) =>
            if row.objectName.None? then None
            else Some(Entry((share, DirText(rel)), row.objectName.value, kept))
  }

  /** A row survives exactly when it has all four keys, at least one label
      matches, the path filter (if any) admits its path and its path lies
      under its share; it then stores the matching labels in their order,
      under its objectName, in the group of its share and parent directory. */
  lemma ClassifySurvives(row: Row, f: RowFilter)
    ensures Classify(row, f).Some? <==>
      && row.attribute.Some? && row.fullObjectName.Some?
      && row.containerName.Some? && row.objectName.Some?
      && FilterLabels(row.attribute.value, f) != []
      && (f.path == "" || RelativeTo(Parts(row.fullObjectName.value), Parts(f.path)).Some?)
      && RelativeTo(Parts(row.fullObjectName.value), Parts(row.containerName.value)).Some?
    ensures Classify(row, f).Some? ==>
      var e, rel := Classify(row, f).value, RelativeTo(Parts(row.fullObjectName.value), Parts(row.containerName.value)).value;
      && e.labels == FilterLabels(row.attribute.value, f)
      && e.name == row.objectName.value
      && e.key == (row.containerName.value, DirText(rel))
      && Parts(row.fullObjectName.value) == Parts(row.containerName.value) + rel
  {
  }

  /** Every group is a valid dict holding at least one file. */
  ghost predicate WellFormed(d: IpLabels)
  {
    && d.Valid()
    && forall k :: k in d.items ==> d.items[k].Valid() && !d.items[k].IsEmpty()
  }

  /** The labels stored for `name` in group `key`, if any. */
  function Lookup(d: IpLabels, key: Key, name: string): Option<seq<string>>
  {
    if key in d.items && name in d.items[key].items then Some(d.items[key].items[name]) else None
  }

  /** The loop body's effect on the map: nothing for a skipped row; otherwise
      create the group if new and set the file's labels, replacing earlier ones. */
  function Insert(d: IpLabels, e: Option<Entry>): (r: IpLabels)
    requires WellFormed(d)
    ensures WellFormed(r)
    ensures e.None? ==> r == d
    ensures e.Some? ==> Lookup(r, e.value.key, e.value.name) == Some(e.value.labels)
  {
    match e
    case None => d
    case Some(Entry(key, name, labels)) =>
      var files: Files := if key in d.items then d.items[key] else Empty();
      var r := d.Put(key, files.Put(name, labels));
      assert name in r.items[key].items;
      assert name in r.items[key].keys;
      r
  }

  /** Storing one file leaves every other file's labels as they were. */
  lemma InsertFrame(d: IpLabels, e: Entry, key: Key, name: string)
    requires WellFormed(d)
    requires (key, name) != (e.key, e.name)
    ensures Lookup(Insert(d, Some(e)), key, name) == Lookup(d, key, name)
  {
  }

  /** The map built by inserting the row outcomes in order. */
  function Collect(es: seq<Option<Entry>>): (r: IpLabels)
    ensures WellFormed(r)
  {
    if |es| == 0 then Empty() else Insert(Collect(es[..|es| - 1]), es[|es| - 1])
  }

  /** What each row contributes, in row order. */
  function Classified(rows: seq<Row>, f: RowFilter): (es: seq<Option<Entry>>)
    ensures |es| == |rows|
    ensures forall i :: 0 <= i < |rows| ==> es[i] == Classify(rows[i], f)
  {
    seq(|rows|, i requires 0 <= i < |rows| => Classify(rows[i], f))
  }

  /** `_get_ip_labels` over the rows, as a function of the rows in order. */
  function Aggregate(rows: seq<Row>, f: RowFilter): (r: IpLabels)
    ensures WellFormed(r)
  {
    Collect(Classified(rows, f))
  }

  lemma ClassifiedAppend(p: seq<Row>, q: seq<Row>, f: RowFilter)
    ensures Classified(p + q, f) == Classified(p, f) + Classified(q, f)
  {
    var l, a, b := Classified(p + q, f), Classified(p, f), Classified(q, f);
    assert |l| == |a + b|;
    forall i | 0 <= i < |l| ensures l[i] == (a + b)[i] {
      if i < |p| {
        var row := p[i];
        assert (p + q)[i] == row && a[i] == Classify(row, f);
      } else {
        var row := q[i - |p|];
        assert (p + q)[i] == row && b[i - |p|] == Classify(row, f);
      }
    }
  }

  /** One more row: the loop body applied to the map built so far. */
  lemma AggregateStep(rows: seq<Row>, f: RowFilter, i: nat)
    requires i < |rows|
    ensures Aggregate(rows[..i + 1], f) == Insert(Aggregate(rows[..i], f), Classify(rows[i], f))
  {
    var es := Classified(rows[..i + 1], f);
    assert es[..i] == Classified(rows[..i], f);
  }

  /** One more outcome at the end is one more insertion. */
  lemma CollectSnoc(es: seq<Option<Entry>>, e: Option<Entry>)
    ensures Collect(es + [e]) == Insert(Collect(es), e)
  {
    assert (es + [e])[..|es|] == es;
  }

  lemma {:induction false} CollectEmptyIff(es: seq<Option<Entry>>)
    ensures Collect(es).IsEmpty() <==> forall i :: 0 <= i < |es| ==> es[i].None?
  {
    if |es| > 0 {
      var init := es[..|es| - 1];
      CollectEmptyIff(init);
      var last := es[|es| - 1];
      if last.Some? {
        var r := Collect(es);
        assert Lookup(r, last.value.key, last.value.name).Some?;
        EmptyHasNoItems(r);
      } else {
        assert forall i :: 0 <= i < |init| ==> init[i] == es[i];
      }
    }
  }

  /** Entry outcome `e` stores labels for `name` in group `key`. */
  predicate Stores(e: Option<Entry>, key: Key, name: string)
  {
    e.Some? && e.value.key == key && e.value.name == name
  }

  /** After one more outcome, a file is stored exactly when it was stored
      before or the outcome stores it. */
  lemma InsertStores(d: IpLabels, e: Option<Entry>, key: Key, name: string)
    requires WellFormed(d)
    ensures Lookup(Insert(d, e), key, name).Some? <==> Lookup(d, key, name).Some? || Stores(e, key, name)
  {
    if e.Some? && !Stores(e, key, name) {
      InsertFrame(d, e.value, key, name);
    }
  }

  lemma {:induction false} CollectStoredIff(es: seq<Option<Entry>>, key: Key, name: string)
    ensures Lookup(Collect(es), key, name).Some? <==> exists i :: 0 <= i < |es| && Stores(es[i], key, name)
  {
    if |es| > 0 {
      var init, last := es[..|es| - 1], es[|es| - 1];
      CollectStoredIff(init, key, name);
      assert es == init + [last];
      CollectSnoc(init, last);
      InsertStores(Collect(init), last, key, name);
      assert forall i :: 0 <= i < |init| ==> init[i] == es[i];
      if exists i :: 0 <= i < |es| && Stores(es[i], key, name) {
        var i :| 0 <= i < |es| && Stores(es[i], key, name);
        if i < |init| {
          assert Stores(init[i], key, name);
        }
      }
    }
  }

  lemma {:induction false} CollectLastWins(es: seq<Option<Entry>>, i: nat)
    requires i < |es| && es[i].Some?
    requires forall j :: i < j < |es| ==> !Stores(es[j], es[i].value.key, es[i].value.name)
    ensures Lookup(Collect(es), es[i].value.key, es[i].value.name) == Some(es[i].value.labels)
  {
    if i < |es| - 1 {
      var init := es[..|es| - 1];
      assert init[i] == es[i];
      forall j | i < j < |init|
        ensures !Stores(init[j], init[i].value.key, init[i].value.name)
      {
        assert init[j] == es[j];
      }
      CollectLastWins(init, i);
      var last := es[|es| - 1];
      if last.Some? {
        InsertFrame(Collect(init), last.value, es[i].value.key, es[i].value.name);
      }
    }
  }

  lemma {:induction false} CollectSkipNeutral(before: seq<Option<Entry>>, after: seq<Option<Entry>>)
    ensures Collect(before + [None] + after) == Collect(before + after)
  {
    if |after| == 0 {
      assert before + [None] + after == before + [None] && before + after == before;
      CollectSnoc(before, None);
    } else {
      var init, last := after[..|after| - 1], after[|after| - 1];
      CollectSkipNeutral(before, init);
      assert before + [None] + after == (before + [None] + init) + [last];
      assert before + after == (before + init) + [last];
      CollectSnoc(before + [None] + init, last);
      CollectSnoc(before + init, last);
    }
  }

  /** Row `row` stores labels for `name` in group `key`. */
  predicate Hits(row: Row, f: RowFilter, key: Key, name: string)
  {
    Stores(Classify(row, f), key, name)
  }

  /** The map is empty, so no sidecar is written for the data source, exactly
      when every row is skipped. */
  lemma AggregateEmptyIff(rows: seq<Row>, f: RowFilter)
    ensures Aggregate(rows, f).IsEmpty() <==> forall i :: 0 <= i < |rows| ==> Classify(rows[i], f).None?
  {
    CollectEmptyIff(Classified(rows, f));
  }

  /** A file appears in a group exactly when some row survives with that
      share, directory and objectName. */
  lemma StoredIffSomeRowHits(rows: seq<Row>, f: RowFilter, key: Key, name: string)
    ensures Lookup(Aggregate(rows, f), key, name).Some? <==>
            exists i :: 0 <= i < |rows| && Hits(rows[i], f, key, name)
  {
    var es := Classified(rows, f);
    CollectStoredIff(es, key, name);
    if exists i :: 0 <= i < |es| && Stores(es[i], key, name) {
      var i :| 0 <= i < |es| && Stores(es[i], key, name);
      assert Hits(rows[i], f, key, name);
    }
  }

  /** Last write wins: the labels stored for a file are those of the last row
      that survives with the same group and objectName. */
  lemma LastRowWins(rows: seq<Row>, f: RowFilter, i: nat)
    requires i < |rows| && Classify(rows[i], f).Some?
    requires forall j :: i < j < |rows| ==>
               !Hits(rows[j], f, Classify(rows[i], f).value.key, Classify(rows[i], f).value.name)
    ensures Lookup(Aggregate(rows, f), Classify(rows[i], f).value.key, Classify(rows[i], f).value.name)
            == Some(Classify(rows[i], f).value.labels)
  {
    var es := Classified(rows, f);
    CollectLastWins(es, i);
  }

  /** A skipped row leaves the map as if it were not there, wherever it
      stands: a malformed row does not stop the rows after it. */
  lemma SkippedRowIsNeutral(before: seq<Row>, x: Row, after: seq<Row>, f: RowFilter)
    requires Classify(x, f).None?
    ensures Aggregate(before + [x] + after, f) == Aggregate(before + after, f)
  {
    ClassifiedAppend(before + [x], after, f);
    ClassifiedAppend(before, [x], f);
    ClassifiedAppend(before, after, f);
    assert Classified([x], f) == [None];
    CollectSkipNeutral(Classified(before, f), Classified(after, f));
  }
}

=== FILE: bigid_api.dfy ===
/** The platform client: the `Status` enum, the `BigID` record built from the
    request parameters, the requests it sends (as records; nothing is sent)
    and the status payload `generate_response` returns. */
module BigIdApi {
  import opened Wrappers

  /** `Status`: three members, each named as its value. */
  datatype Status = IN_PROGRESS | COMPLETED | ERROR {

    /** `status.name`. */
    function Name(): string
    {
      match this
      case IN_PROGRESS => "IN_PROGRESS"
      case COMPLETED => "COMPLETED"
      case ERROR => "ERROR"
    }

    /** `status.value`. */
    function Value(): string
    {
      match this
      case IN_PROGRESS => "IN_PROGRESS"
      case COMPLETED => "COMPLETED"
      case ERROR => "ERROR"
    }
  }

  /** Each member's name is its value, and distinct members have distinct
      values (the enum is `@unique`). */
  lemma StatusNamesAreValues(s: Status, t: Status)
    ensures s.Name() == s.Value()
    ensures s.Value() == t.Value() ==> s == t
  {
  }

  const ContentType: string := "application/json; charset=UTF-8"

  /** The parameters the constructor reads, in the order it reads them. */
  const RequiredParams: seq<string> :=
    ["bigidBaseUrl", "updateResultCallback", "executionId", "tpaId", "bigidToken"]

  datatype Verb = GET | POST | PUT

  /** A request as `requests.get/post/put` would be called with it. */
  datatype Request = Request(verb: Verb, url: string, headers: map<string, string>, data: Option<string>)

  /** A value in the status payload. */
  datatype Field = Text(text: string) | Number(number: real)

  datatype BigID = BigID(
    baseUrl: string,
    updateUrl: string,
    executionId: string,
    tpaId: string,
    headers: map<string, string>)
  {
    /** `f"{self._base_url}{endpoint}"`. */
    function Url(endpoint: string): (r: string)
      ensures |r| == |baseUrl| + |endpoint|
      ensures r[..|baseUrl|] == baseUrl && r[|baseUrl|..] == endpoint
    {
      baseUrl + endpoint
    }

    /** `get(endpoint)`: the stored headers, no body. */
    function Get(endpoint: string): (r: Request)
      ensures r.verb == GET && r.url == Url(endpoint) && r.headers == headers && r.data.None?
    {
      Request(GET, Url(endpoint), headers, None)
    }

    /** `post(endpoint, data)`. */
    function Post(endpoint: string, data: string): (r: Request)
      ensures r.verb == POST && r.url == Url(endpoint) && r.headers == headers && r.data == Some(data)
    {
      Request(POST, Url(endpoint), headers, Some(data))
    }

    /** `put(endpoint, data)`. */
    function Put(endpoint: string, data: string): (r: Request)
      ensures r.verb == PUT && r.url == Url(endpoint) && r.headers == headers && r.data == Some(data)
    {
      Request(PUT, Url(endpoint), headers, Some(data))
    }

    /** `generate_response(status, progress, message)`: exactly four keys. */
    function GenerateResponse(status: Status, progress: real, message: string): (r: map<string, Field>)
      ensures r.Keys == {"executionId", "statusEnum", "progress", "message"}
      ensures r["executionId"] == Text(executionId)
      ensures r["statusEnum"] == Text(status.Name())
      ensures r["progress"] == Number(progress) && r["message"] == Text(message)
    {
      map["executionId" := Text(executionId),
          "statusEnum" := Text(status.Name()),
          "progress" := Number(progress),
          "message" := Text(message)]
    }
  }

  /** `BigID(params)`: `KeyError` for the first required parameter missing;
      otherwise the fields and exactly two headers. */
  function NewBigID(params: map<string, string>): (r: Result<BigID, string>)
    ensures r.Success? <==> forall k :: k in RequiredParams ==> k in params
    ensures r.Failure? ==> exists k :: k in RequiredParams && k !in params && r.error == KeyErrorText(k)
    ensures "bigidBaseUrl" !in params ==> r == Failure(KeyErrorText("bigidBaseUrl"))
    ensures "bigidBaseUrl" in params && "updateResultCallback" !in params ==>
      r == Failure(KeyErrorText("updateResultCallback"))
    ensures "bigidBaseUrl" in params && "updateResultCallback" in params && "executionId" !in params ==>
      r == Failure(KeyErrorText("executionId"))
    ensures ("bigidBaseUrl" in params && "updateResultCallback" in params && "executionId" in params
             && "tpaId" !in params) ==> r == Failure(KeyErrorText("tpaId"))
    ensures ("bigidBaseUrl" in params && "updateResultCallback" in params && "executionId" in params
             && "tpaId" in params && "bigidToken" !in params) ==> r == Failure(KeyErrorText("bigidToken"))
    ensures r.Success? ==>
      && r.value.baseUrl == params["bigidBaseUrl"]
      && r.value.updateUrl == params["updateResultCallback"]
      && r.value.executionId == params["executionId"]
      && r.value.tpaId == params["tpaId"]
      && r.value.headers == map["Content-Type" := ContentType, "Authorization" := params["bigidToken"]]
  {
    if "bigidBaseUrl" !in params then Failure(KeyErrorText("bigidBaseUrl"))
    else if "updateResultCallback" !in params then Failure(KeyErrorText("updateResultCallback"))
    else if "executionId" !in params then Failure(KeyErrorText("executionId"))
    else if "tpaId" !in params then Failure(KeyErrorText("tpaId"))
    else if "bigidToken" !in params then Failure(KeyErrorText("bigidToken"))
    else
      Success(BigID(
        params["bigidBaseUrl"],
        params["updateResultCallback"],
        params["executionId"],
        params["tpaId"],
        map["Content-Type" := ContentType, "Authorization" := params["bigidToken"]]))
  }

  /** Removing any one required parameter makes construction fail. */
  lemma MissingParamFails(params: map<string, string>, k: string)
    requires k in RequiredParams
    ensures NewBigID(params - {k}).Failure?
  {
  }

  /** `get`, `post` and `put` on the same endpoint target the same URL with the
      same headers: the base URL followed by the endpoint. */
  lemma RequestsShareTarget(api: BigID, endpoint: string, data: string)
    ensures api.Get(endpoint).url == api.Post(endpoint, data).url == api.Put(endpoint, data).url
    ensures api.Get(endpoint).headers == api.Post(endpoint, data).headers == api.Put(endpoint, data).headers == api.headers
  {
  }
}

=== FILE: configuration.dfy ===
/** Configuration loading: the `DataSourceSmb` record, its `add_api_info`
    and `__repr__`, and `Config`, which turns the already-parsed list of
    data-source entries into records and warnings. Declaration values are strings. */
module Configuration {
  import opened Wrappers
  import opened PyStr

  /** One data-source entry of the configuration: a mutable `dict`. */
  type Declaration = map<string, string>

  /** What `_scrub_creds` writes over a credential. */
  const Mask: string := "********"

  /** `d.get(k, default)`: the stored value of a present key, the default otherwise. */
  function GetOr(d: map<string, string>, k: string, default: string): (r: string)
    ensures k in d ==> r == d[k]
    ensures k !in d ==> r == default
  {
    if k in d then d[k] else default
  }

  /** The value of a `DataSourceSmb`, field by field in declaration order. */
  datatype SmbSource = SmbSource(
    name: string,
    kind: string,
    labelFilter: string,
    pathFilter: string,
    username: string,
    password: string,
    server: string,
    domain: string,
    shares: Option<seq<string>>)

  /** A field value as `repr` shows it. */
  datatype PyValue = Str(s: string) | StrList(items: seq<string>) | NoneValue

  /** One lowercase hex digit. */
  function HexDigit(n: nat): char
    requires n < 16
  {
    if n < 10 then '0' + n as char else 'a' + (n - 10) as char
  }

  /** One character inside a quoted `repr`: backslash, the quote in use, tab,
      newline and carriage return are escaped, other control characters
      become `\xNN`. */
  function EscapeChar(c: char, quote: char): string
  {
    if c == quote || c == '\\' then ['\\', c]
    else if c == '\t' then "\\t"
    else if c == '\n' then "\\n"
    else if c == '\r' then "\\r"
    else if (c as int) < 32 || c as int == 127 then ['\\', 'x', HexDigit(c as int / 16), HexDigit(c as int % 16)]
    else [c]
  }

  function Escape(s: string, quote: char): string
  {
    if |s| == 0 then "" else EscapeChar(s[0], quote) + Escape(s[1..], quote)
  }

  /** `repr(s)` for a string: single quotes unless the text holds a single
      quote and no double quote. */
  function Quote(s: string): string
  {
    var quote := if '\'' in s && '"' !in s then '"' else '\'';
    [quote] + Escape(s, quote) + [quote]
  }

  function QuoteAll(items: seq<string>): (r: seq<string>)
    ensures |r| == |items|
  {
    if |items| == 0 then [] else [Quote(items[0])] + QuoteAll(items[1..])
  }

  /** `repr(value)`. */
  function ValueRepr(v: PyValue): string
  {
    match v
    case Str(s) => Quote(s)
    case StrList(items) => "[" + Join(QuoteAll(items), ", ") + "]"
    case NoneValue => "None"
  }

  /** The attribute names of a `DataSourceSmb`, in declaration order. */
  datatype FieldKey = NameKey | KindKey | LabelFilterKey | PathFilterKey
                    | UsernameKey | PasswordKey | ServerKey | DomainKey | SharesKey
  {
    function Text(): string
    {
      match this
      case NameKey => "name"
      case KindKey => "kind"
      case LabelFilterKey => "label_filter"
      case PathFilterKey => "path_filter"
      case UsernameKey => "username"
      case PasswordKey => "password"
      case ServerKey => "server"
      case DomainKey => "domain"
      case SharesKey => "shares"
    }

    predicate IsCredential()
    {
      this == UsernameKey || this == PasswordKey
    }
  }

  /** `self.__dict__.items()`: every field, in declaration order. */
  function Fields(ds: SmbSource): seq<(FieldKey, PyValue)>
  {
    [(NameKey, Str(ds.name)), (KindKey, Str(ds.kind)),
     (LabelFilterKey, Str(ds.labelFilter)), (PathFilterKey, Str(ds.pathFilter)),
     (UsernameKey, Str(ds.username)), (PasswordKey, Str(ds.password)),
     (ServerKey, Str(ds.server)), (DomainKey, Str(ds.domain)),
     (SharesKey, if ds.shares.Some? then StrList(ds.shares.value) else NoneValue)]
  }

  /** `f"{key}={value!r}"`. */
  function KwArg(key: string, v: PyValue): string
  {
    key + "=" + ValueRepr(v)
  }

  /** `f"{key}={value!r}"` for one field. */
  function Show(field: (FieldKey, PyValue)): string
  {
    KwArg(field.0.Text(), field.1)
  }

  /** `[f"{key}={value!r}" for key, value in fields if key not in ("username", "password")]`. */
  function Shown(fields: seq<(FieldKey, PyValue)>): seq<string>
  {
    if |fields| == 0 then []
    else if fields[0].0.IsCredential() then Shown(fields[1..])
    else [Show(fields[0])] + Shown(fields[1..])
  }

  /** `DataSourceSmb.__repr__`. */
  function ReprOf(ds: SmbSource): string
  {
    "DataSourceSmb(" + Join(Shown(Fields(ds)), ", ") + ")"
  }

  /** `Shown` skips a credential field. */
  lemma ShownSkips(field: (FieldKey, PyValue), rest: seq<(FieldKey, PyValue)>)
    requires field.0.IsCredential()
    ensures Shown([field] + rest) == Shown(rest)
  {
    assert ([field] + rest)[1..] == rest;
  }

  /** `Shown` keeps any other field, in front. */
  lemma ShownKeeps(field: (FieldKey, PyValue), rest: seq<(FieldKey, PyValue)>)
    requires !field.0.IsCredential()
    ensures Shown([field] + rest) == [Show(field)] + Shown(rest)
  {
    assert ([field] + rest)[1..] == rest;
  }

  /** Seven items consed one by one form the seven-item list. */
  lemma SevenInOrder<T>(a: T, b: T, c: T, d: T, e: T, f: T, g: T)
    ensures [a] + ([b] + ([c] + ([d] + ([e] + ([f] + ([g] + [])))))) == [a, b, c, d, e, f, g]
  {
  }

  /** The representation lists the seven non-credential fields in order. */
  lemma ReprListsFieldsInOrder(ds: SmbSource)
    ensures Shown(Fields(ds)) ==
      [KwArg("name", Str(ds.name)), KwArg("kind", Str(ds.kind)),
       KwArg("label_filter", Str(ds.labelFilter)), KwArg("path_filter", Str(ds.pathFilter)),
       KwArg("server", Str(ds.server)), KwArg("domain", Str(ds.domain)),
       KwArg("shares", if ds.shares.Some? then StrList(ds.shares.value) else NoneValue)]
  {
    ShownInOrder(ds);
  }

  /** `Shown` walks the nine fields in declaration order, dropping the two credentials. */
  lemma ShownInOrder(ds: SmbSource)
    ensures Shown(Fields(ds)) ==
      [Show((NameKey, Str(ds.name))), Show((KindKey, Str(ds.kind))),
       Show((LabelFilterKey, Str(ds.labelFilter))), Show((PathFilterKey, Str(ds.pathFilter))),
       Show((ServerKey, Str(ds.server))), Show((DomainKey, Str(ds.domain))),
       Show((SharesKey, if ds.shares.Some? then StrList(ds.shares.value) else NoneValue))]
  {
    var f0, f1, f2 := (NameKey, Str(ds.name)), (KindKey, Str(ds.kind)), (LabelFilterKey, Str(ds.labelFilter));
    var f3, f4, f5 := (PathFilterKey, Str(ds.pathFilter)), (UsernameKey, Str(ds.username)), (PasswordKey, Str(ds.password));
    var f6, f7 := (ServerKey, Str(ds.server)), (DomainKey, Str(ds.domain));
    var f8 := (SharesKey, if ds.shares.Some? then StrList(ds.shares.value) else NoneValue);
    var s8 := [f8] + [];
    var s7 := [f7] + s8;
    var s6 := [f6] + s7;
    var s5 := [f5] + s6;
    var s4 := [f4] + s5;
    var s3 := [f3] + s4;
    var s2 := [f2] + s3;
    var s1 := [f1] + s2;
    assert Fields(ds) == [f0] + s1;
    ShownKeeps(f8, []);
    ShownKeeps(f7, s8);
    ShownKeeps(f6, s7);
    ShownSkips(f5, s6);
    ShownSkips(f4, s5);
    ShownKeeps(f3, s4);
    ShownKeeps(f2, s3);
    ShownKeeps(f1, s2);
    ShownKeeps(f0, s1);
    SevenInOrder(Show(f0), Show(f1), Show(f2), Show(f3), Show(f6), Show(f7), Show(f8));
  }

  /** The representation does not depend on the credentials. */
  lemma ReprIgnoresCredentials(ds: SmbSource, username: string, password: string)
    ensures ReprOf(ds.(username := username, password := password)) == ReprOf(ds)
  {
    ReprListsFieldsInOrder(ds);
    ReprListsFieldsInOrder(ds.(username := username, password := password));
  }

  /** A configured SMB data source, completed in place by `add_api_info`. */
  class DataSourceSmb {
    var name: string
    var kind: string
    var labelFilter: string
    var pathFilter: string
    var username: string
    var password: string
    var server: string
    var domain: string
    var shares: Option<seq<string>>

    function Value(): SmbSource
      reads this
    {
      SmbSource(name, kind, labelFilter, pathFilter, username, password, server, domain, shares)
    }

    /** The dataclass constructor: `server` and `domain` default to `""`, `shares` to `None`. */
    constructor (name: string, kind: string, labelFilter: string, pathFilter: string, username: string, password: string)
      ensures Value() == SmbSource(name, kind, labelFilter, pathFilter, username, password, "", "", None)
    {
      this.name, this.kind, this.labelFilter, this.pathFilter := name, kind, labelFilter, pathFilter;
      this.username, this.password := username, password;
      server, domain, shares := "", "", None;
    }

    /** `add_api_info(info)`: `KeyError` without `smbServer`, changing nothing;
        otherwise sets the server, the comma-separated shares (`[""]` when
        absent) and the domain (`""` when absent). */
    method AddApiInfo(info: map<string, string>) returns (err: Option<string>)
      modifies this
      ensures "smbServer" !in info ==> err == Some(KeyErrorText("smbServer")) && Value() == old(Value())
      ensures "smbServer" in info ==>
        && err.None?
        && Value() == old(Value()).(
             server := info["smbServer"],
             shares := Some(Split(GetOr(info, "sharedResource", ""), ',')),
             domain := GetOr(info, "domain", ""))
    {
      if "smbServer" !in info {
        return Some(KeyErrorText("smbServer"));
      }
      server := info["smbServer"];
      shares := Some(Split(GetOr(info, "sharedResource", ""), ','));
      domain := GetOr(info, "domain", "");
      err := None;
    }

    function Repr(): string
      reads this
    {
      ReprOf(Value())
    }
  }

  /** After `add_api_info`, joining the shares with `,` gives back
      `sharedResource`, and a missing value gives the single share `""`. */
  lemma SharesRoundTrip(info: map<string, string>)
    ensures Join(Split(GetOr(info, "sharedResource", ""), ','), ",") == GetOr(info, "sharedResource", "")
    ensures "sharedResource" !in info ==> Split(GetOr(info, "sharedResource", ""), ',') == [""]
  {
    JoinSplit(GetOr(info, "sharedResource", ""), ',');
  }

  /** The values of a list of records. */
  function Values(ds: seq<DataSourceSmb>): (r: seq<SmbSource>)
    reads ds
    ensures |r| == |ds|
  {
    seq(|ds|, k requires 0 <= k < |ds| reads ds => ds[k].Value())
  }

  /** The entry keys `_scrub_creds` masks. */
  predicate IsCredentialKey(key: string)
  {
    key == "username" || key == "password"
  }

  /** `_scrub_creds(ds)`: the entry with `username` and `password`, where
      present, replaced by the mask; every other key untouched. */
  function Scrubbed(e: Declaration): (r: Declaration)
    ensures r.Keys == e.Keys
    ensures forall k :: k in e && IsCredentialKey(k) ==> r[k] == Mask
    ensures forall k :: k in e && !IsCredentialKey(k) ==> r[k] == e[k]
  {
    map k | k in e :: if IsCredentialKey(k) then Mask else e[k]
  }

  /** `e` with the keys of `ks` that it holds masked. */
  function MaskKeys(e: Declaration, ks: seq<string>): Declaration
  {
    map k | k in e :: if k in ks then Mask else e[k]
  }

  /** Masking one more key is one more dictionary assignment, if present. */
  lemma MaskKeysStep(e: Declaration, ks: seq<string>, k: string)
    ensures MaskKeys(e, ks + [k]) == if k in MaskKeys(e, ks) then MaskKeys(e, ks)[k := Mask] else MaskKeys(e, ks)
  {
    var m := MaskKeys(e, ks + [k]);
    var n := if k in MaskKeys(e, ks) then MaskKeys(e, ks)[k := Mask] else MaskKeys(e, ks);
    assert m.Keys == n.Keys;
    forall x | x in m ensures m[x] == n[x] {
      assert x in ks + [k] <==> x in ks || x == k;
    }
  }

  /** The warning an entry yields, or the record it loads. The warning text
      shows `None`, the value `_scrub_creds` returns, and the exception. */
  function ParseEntry(e: Declaration): Result<SmbSource, string>
  {
    if "kind" !in e then Failure("failed to parse data source: None ex: " + KeyErrorText("kind"))
    else if e["kind"] != "smb" then Failure("unsupported data source: None")
    else if "name" !in e then Failure("failed to parse data source: None ex: " + KeyErrorText("name"))
    else if "username" !in e then Failure("failed to parse data source: None ex: " + KeyErrorText("username"))
    else if "password" !in e then Failure("failed to parse data source: None ex: " + KeyErrorText("password"))
    else Success(SmbSource(e["name"], e["kind"], GetOr(e, "label_filter", ".*"), GetOr(e, "path_filter", ""),
                           e["username"], e["password"], "", "", None))
  }

  /** An entry loads a record exactly when it has kind `smb`, a name and both
      credentials; the filters default to `.*` and `""`. */
  lemma ParseEntryLoads(e: Declaration)
    ensures ParseEntry(e).Success? <==>
      ("kind" in e && e["kind"] == "smb" && "name" in e && "username" in e && "password" in e)
    ensures ParseEntry(e).Success? ==> ParseEntry(e).value == SmbSource(
      e["name"], "smb", GetOr(e, "label_filter", ".*"), GetOr(e, "path_filter", ""),
      e["username"], e["password"], "", "", None)
    ensures ("kind" in e && e["kind"] != "smb") ==> ParseEntry(e) == Failure("unsupported data source: None")
    ensures "kind" !in e ==>
      ParseEntry(e) == Failure("failed to parse data source: None ex: " + KeyErrorText("kind"))
    ensures "kind" in e && e["kind"] == "smb" && "name" !in e ==>
      ParseEntry(e) == Failure("failed to parse data source: None ex: " + KeyErrorText("name"))
    ensures "kind" in e && e["kind"] == "smb" && "name" in e && "username" !in e ==>
      ParseEntry(e) == Failure("failed to parse data source: None ex: " + KeyErrorText("username"))
    ensures "kind" in e && e["kind"] == "smb" && "name" in e && "username" in e && "password" !in e ==>
      ParseEntry(e) == Failure("failed to parse data source: None ex: " + KeyErrorText("password"))
  {
  }

  /** The record an entry contributes: none or one. */
  function LoadedOf(e: Declaration): seq<SmbSource>
  {
    match ParseEntry(e)
    case Success(s) => [s]
    case Failure(_) => []
  }

  /** The warning an entry contributes: none or one. */
  function WarningOf(e: Declaration): seq<string>
  {
    match ParseEntry(e)
    case Success(_) => []
    case Failure(w) => [w]
  }

  /** An entry after loading: scrubbed when it yielded a warning. */
  function ScrubIfRejected(e: Declaration): Declaration
  {
    if ParseEntry(e).Success? then e else Scrubbed(e)
  }

  /** The records loaded from the entries, in input order. */
  function LoadedSources(es: seq<Declaration>): seq<SmbSource>
  {
    if |es| == 0 then [] else LoadedSources(es[..|es| - 1]) + LoadedOf(es[|es| - 1])
  }

  /** The warnings recorded for the entries, in input order. */
  function LoadWarnings(es: seq<Declaration>): seq<string>
  {
    if |es| == 0 then [] else LoadWarnings(es[..|es| - 1]) + WarningOf(es[|es| - 1])
  }

  /** The entries after loading: each entry that yielded a warning is scrubbed. */
  function AfterLoad(es: seq<Declaration>): (r: seq<Declaration>)
    ensures |r| == |es|
    ensures forall i :: 0 <= i < |es| ==> r[i] == ScrubIfRejected(es[i])
  {
    seq(|es|, i requires 0 <= i < |es| => ScrubIfRejected(es[i]))
  }

  /** One entry yields one record or one warning, never both. */
  lemma RecordOrWarning(e: Declaration)
    ensures |LoadedOf(e)| == (if ParseEntry(e).Success? then 1 else 0)
    ensures |LoadedOf(e)| + |WarningOf(e)| == 1
  {
  }

  /** The indices of the entries that load a record. */
  function GoodIndices(es: seq<Declaration>): set<int>
  {
    set i | 0 <= i < |es| && ParseEntry(es[i]).Success?
  }

  lemma GoodIndicesStep(es: seq<Declaration>)
    requires |es| > 0
    ensures GoodIndices(es) ==
      GoodIndices(es[..|es| - 1]) + (if ParseEntry(es[|es| - 1]).Success? then {|es| - 1} else {})
  {
    var init := es[..|es| - 1];
    assert forall i :: 0 <= i < |init| ==> init[i] == es[i];
  }

  /** Every entry yields exactly one record or exactly one warning: N good and
      M bad entries give N records and M warnings. */
  lemma {:induction false} LoadCounts(es: seq<Declaration>)
    ensures |LoadedSources(es)| + |LoadWarnings(es)| == |es|
    ensures |LoadedSources(es)| == |GoodIndices(es)|
  {
    if |es| > 0 {
      var init, last := es[..|es| - 1], es[|es| - 1];
      LoadCounts(init);
      RecordOrWarning(last);
      GoodIndicesStep(es);
      assert |es| - 1 !in GoodIndices(init);
    }
  }

  /** Two entries that differ at most in their credential values. */
  predicate SameButCredentials(a: Declaration, b: Declaration)
  {
    a.Keys == b.Keys && forall k :: k in a && !IsCredentialKey(k) ==> a[k] == b[k]
  }

  /** Entries that differ only in credentials scrub to the same entry and
      yield the same warning. */
  lemma SameButCredentialsAlike(a: Declaration, b: Declaration)
    requires SameButCredentials(a, b)
    ensures Scrubbed(a) == Scrubbed(b)
    ensures WarningOf(a) == WarningOf(b)
  {
    assert forall k :: k in a ==> Scrubbed(a)[k] == Scrubbed(b)[k];
    if ParseEntry(a).Failure? {
      assert ParseEntry(a) == ParseEntry(b);
    }
  }

  /** The warnings, and the scrubbed entries they come from, never depend on
      the credential values. */
  lemma {:induction false} WarningsIgnoreCredentials(es: seq<Declaration>, fs: seq<Declaration>)
    requires |es| == |fs|
    requires forall i :: 0 <= i < |es| ==> SameButCredentials(es[i], fs[i])
    ensures LoadWarnings(es) == LoadWarnings(fs)
    ensures forall i :: 0 <= i < |es| && ParseEntry(es[i]).Failure? ==> Scrubbed(es[i]) == Scrubbed(fs[i])
  {
    if |es| > 0 {
      var n := |es| - 1;
      assert forall i :: 0 <= i < n ==> SameButCredentials(es[..n][i], fs[..n][i]);
      WarningsIgnoreCredentials(es[..n], fs[..n]);
      SameButCredentialsAlike(es[n], fs[n]);
    }
    forall i | 0 <= i < |es|
      ensures Scrubbed(es[i]) == Scrubbed(fs[i])
    {
      SameButCredentialsAlike(es[i], fs[i]);
    }
  }

  /** How the three folds grow by one entry. */
  lemma LoadStep(es: seq<Declaration>, i: int)
    requires 0 <= i < |es|
    ensures (AfterLoad(es[..i]) + es[i..])[i] == es[i]
    ensures (AfterLoad(es[..i]) + es[i..])[i := ScrubIfRejected(es[i])] == AfterLoad(es[..i + 1]) + es[i + 1..]
    ensures LoadWarnings(es[..i + 1]) == LoadWarnings(es[..i]) + WarningOf(es[i])
    ensures LoadedSources(es[..i + 1]) == LoadedSources(es[..i]) + LoadedOf(es[i])
  {
    assert es[..i + 1][..i] == es[..i];
    assert AfterLoad(es[..i + 1]) == AfterLoad(es[..i]) + [ScrubIfRejected(es[i])];
  }

  lemma Associative<T>(a: seq<T>, b: seq<T>, c: seq<T>)
    ensures (a + b) + c == a + (b + c)
  {
  }

  class Config {
    var version: int
    var dataSources: seq<DataSourceSmb>
    var warnings: seq<string>

    /** `Config.__init__` once the JSON text is parsed and both top-level
        keys were found. */
    constructor (version: int, entries: array<Declaration>)
      modifies entries
      ensures this.version == version
      ensures Values(dataSources) == LoadedSources(old(entries[..]))
      ensures warnings == LoadWarnings(old(entries[..]))
      ensures entries[..] == AfterLoad(old(entries[..]))
      ensures forall d :: d in dataSources ==> fresh(d)
    {
      this.version := version;
      dataSources := [];
      warnings := [];
      new;
      LoadDataSources(entries);
    }

    /** `warn(warning)`: appends exactly one warning. */
    method Warn(warning: string)
      modifies this
      ensures warnings == old(warnings) + [warning]
      ensures dataSources == old(dataSources) && version == old(version)
    {
      warnings := warnings + [warning];
    }

    /** `_scrub_creds(entries[i])`: masks the credentials in place. */
    static method ScrubCreds(entries: array<Declaration>, i: int)
      requires 0 <= i < entries.Length
      modifies entries
      ensures entries[..] == old(entries[..])[i := Scrubbed(old(entries[i]))]
    {
      var keys := ["username", "password"];
      ghost var e := entries[i];
      assert MaskKeys(e, keys[..0]) == e;
      for j := 0 to |keys|
        invariant entries[..] == old(entries[..])[i := MaskKeys(e, keys[..j])]
      {
        MaskKeysStep(e, keys[..j], keys[j]);
        assert keys[..j + 1] == keys[..j] + [keys[j]];
        if keys[j] in entries[i] {
          entries[i] := entries[i][keys[j] := Mask];
        }
      }
      assert keys[..2] == keys;
      assert MaskKeys(e, keys) == Scrubbed(e);
    }

    /** `_load_data_sources`: one record or one warning per entry, in order;
        entries that yield a warning are scrubbed in place first. */
    method LoadDataSources(entries: array<Declaration>)
      modifies this, entries
      ensures version == old(version)
      ensures Values(dataSources) == old(Values(dataSources)) + LoadedSources(old(entries[..]))
      ensures warnings == old(warnings) + LoadWarnings(old(entries[..]))
      ensures entries[..] == AfterLoad(old(entries[..]))
      ensures forall d :: d in dataSources && d !in old(dataSources) ==> fresh(d)
    {
      ghost var es := entries[..];
      ghost var before, warned := Values(dataSources), warnings;
      ghost var loaded: seq<SmbSource> := [];
      for i := 0 to entries.Length
        invariant version == old(version)
        invariant entries[..] == AfterLoad(es[..i]) + es[i..]
        invariant loaded == LoadedSources(es[..i])
        invariant Values(dataSources) == before + loaded
        invariant warnings == warned + LoadWarnings(es[..i])
        invariant forall d :: d in dataSources && d !in old(dataSources) ==> fresh(d)
      {
        LoadStep(es, i);
        ghost var added, warning := LoadedOf(es[i]), WarningOf(es[i]);
        Associative(before, loaded, added);
        Associative(warned, LoadWarnings(es[..i]), warning);
        LoadEntry(entries, i);
        loaded := loaded + added;
      }
      assert es[..entries.Length] == es && es[entries.Length..] == [];
      assert entries[..] == AfterLoad(es) + [];
    }

    /** One pass of the loop in `_load_data_sources`. */
    method LoadEntry(entries: array<Declaration>, i: int)
      requires 0 <= i < entries.Length
      modifies this, entries
      ensures version == old(version)
      ensures Values(dataSources) == old(Values(dataSources)) + LoadedOf(old(entries[i]))
      ensures warnings == old(warnings) + WarningOf(old(entries[i]))
      ensures entries[..] == old(entries[..])[i := ScrubIfRejected(old(entries[i]))]
      ensures forall d :: d in dataSources && d !in old(dataSources) ==> fresh(d)
    {
      var ds := entries[i];
      var failure: Option<string> := None;
      if "kind" !in ds {
        failure := Some("failed to parse data source: None ex: " + KeyErrorText("kind"));
      } else if ds["kind"] == "smb" {
        if "name" !in ds {
          failure := Some("failed to parse data source: None ex: " + KeyErrorText("name"));
        } else if "username" !in ds {
          failure := Some("failed to parse data source: None ex: " + KeyErrorText("username"));
        } else if "password" !in ds {
          failure := Some("failed to parse data source: None ex: " + KeyErrorText("password"));
        } else {
          var d := new DataSourceSmb(ds["name"], ds["kind"], GetOr(ds, "label_filter", ".*"),
                                     GetOr(ds, "path_filter", ""), ds["username"], ds["password"]);
          dataSources := dataSources + [d];
        }
      } else {
        failure := Some("unsupported data source: None");
      }
      if failure.Some? {
        ScrubCreds(entries, i);
        Warn(failure.value);
      }
    }
  }

  /** `Config(cfg)` from the parsed document: a missing `version` or
      `data_sources` is not caught and surfaces as the `KeyError`. */
  method NewConfig(version: Option<int>, dataSources: Option<array<Declaration>>) returns (r: Result<Config, string>)
    modifies if dataSources.Some? then {dataSources.value} else {}
    ensures version.None? ==> r == Failure(KeyErrorText("version"))
    ensures version.None? && dataSources.Some? ==> unchanged(dataSources.value)
    ensures version.Some? && dataSources.None? ==> r == Failure(KeyErrorText("data_sources"))
    ensures version.Some? && dataSources.Some? ==>
      && r.Success? && fresh(r.value)
      && r.value.version == version.value
      && Values(r.value.dataSources) == LoadedSources(old(dataSources.value[..]))
      && r.value.warnings == LoadWarnings(old(dataSources.value[..]))
      && dataSources.value[..] == AfterLoad(old(dataSources.value[..]))
  {
    if version.None? {
      return Failure(KeyErrorText("version"));
    }
    if dataSources.None? {
      return Failure(KeyErrorText("data_sources"));
    }
    var c := new Config(version.value, dataSources.value);
    r := Success(c);
  }
}

=== FILE: execution.dfy ===
/** `Executor`: runs the action BigID asks for. "Encrypt" writes, for every
    data source, one `.ip-labels` sidecar per directory that holds labelled
    files; "Verify Config" proves each SMB data source reachable by writing
    and deleting a probe file. Each method of the class is proved against a
    function of the starting state of the file servers. */
module Execution {
  import opened Wrappers
  import opened PyStr
  import opened PyDict
  import opened Aggregation
  import opened SmbSession
  import opened BigIdApi
  import Configuration

  type SmbSource = Configuration.SmbSource

  const HTTP_400: string := "400 Bad Request"

  /** The sidecar file name. */
  const SidecarName: string := ".ip-labels"

  /** The share `_verify_config` probes: a fixed name in the code. */
  const VerifyShare: string := "share-name"

  /** `repr` of the exception a refused connection raises. */
  const ConnectFailed: string := "RuntimeError('Failed to connect')"

  /** The bytes of an ASCII string. */
  function AsciiBytes(s: string): (r: Bytes)
    requires forall i :: 0 <= i < |s| ==> s[i] as int < 128
    ensures |r| == |s|
    ensures forall i :: 0 <= i < |s| ==> r[i] as int == s[i] as int
  {
    seq(|s|, i requires 0 <= i < |s| => s[i] as int as Byte)
  }

  /** `b"verify-smb-connection"`. */
  const ProbeData: Bytes := AsciiBytes("verify-smb-connection")

  /** The JSON document the data catalog answers for one data source. */
  datatype Scan = Scan(totalRowsCounter: Option<int>, results: Option<seq<Row>>)

  /** The regular-expression engine: whether a pattern compiles, the `repr`
      of the error when it does not, and the case-insensitive match-at-start
      test of a compiled pattern. */
  datatype Regex = Regex(compiles: string -> bool, error: string -> string, matches: (string, string) -> bool)

  /** What the executor depends on but the model does not define: the action
      BigID asks for, the data sources it resolves, the catalog's answer to
      each request URL, the regex engine, the JSON encoder of a sidecar, the
      probe name drawn for the i-th data source, the `repr` of an exception
      the SMB library raises, and the payload of a completed request. */
  datatype Env = Env(
    actionName: string,
    sources: seq<SmbSource>,
    catalog: string -> Scan,
    regex: Regex,
    encode: Files -> Bytes,
    probe: nat -> string,
    remoteError: string,
    completion: map<string, Field>)

  /** An exception leaving `execute`: an `ExecutionError` (its status and
      message are sent back) or anything else (sent back as HTTP 500 with
      its `repr`). */
  datatype Fault = ExecutionError(status: string, message: string) | Raised(repr: string)

  datatype Outcome = Completed(response: map<string, Field>) | Failed(fault: Fault)

  /** The catalog endpoint for a data source. */
  function ScanEndpoint(name: string): string
  {
    "data-catalog?filter=system=" + name
  }

  /** `Smb(ds.username, ds.password, ds.server, ds.domain)`. */
  function CredsOf(ds: SmbSource): Creds
  {
    Creds(ds.username, ds.password, ds.server, ds.domain)
  }

  /** The filters of a data source: its pattern and its path filter without
      leading slashes. */
  function FilterOf(env: Env, ds: SmbSource): RowFilter
  {
    RowFilter(ds.labelFilter, LStrip(ds.pathFilter, '/'), env.regex.matches)
  }

  /** `_get_ip_labels(ds)`: `KeyError` when the answer has no
      `totalRowsCounter`, the regex error when the pattern does not compile,
      and otherwise the rows of `results` (none when absent) aggregated. */
  function IpLabelsOf(api: BigID, env: Env, ds: SmbSource): (r: Result<IpLabels, string>)
    ensures r.Success? ==> WellFormed(r.value)
  {
    var scan := env.catalog(api.Get(ScanEndpoint(ds.name)).url);
    if scan.totalRowsCounter.None? then Failure(KeyErrorText("totalRowsCounter"))
    else if !env.regex.compiles(ds.labelFilter) then Failure(env.regex.error(ds.labelFilter))
    else Success(Aggregate(if scan.results.Some? then scan.results.value else [], FilterOf(env, ds)))
  }

  /** The three counters of `_write_ip_labels`. */
  datatype Tally = Tally(sources: nat, written: nat, errors: nat)

  /** One group: a failed `is_dir` or `atomic_write` counts an error, a
      missing directory is skipped, a write counts one sidecar. */
  function WriteGroup(env: Env, labels: IpLabels, key: Key, t: Tally, w: World): (Tally, World)
    requires key in labels.items
  {
    var (isDir, w1) := IsDirOp(w, key.0, key.1);
    if isDir.None? then (t.(errors := t.errors + 1), w1)
    else if !isDir.value then (t, w1)
    else
      var (ok, w2) := AtomicWriteOp(w1, key.0, key.1, SidecarName, env.encode(labels.items[key]));
      if ok then (t.(written := t.written + 1), w2) else (t.(errors := t.errors + 1), w2)
  }

  /** The groups in the given order, one after another. */
  function WriteGroups(env: Env, labels: IpLabels, keys: seq<Key>, t: Tally, w: World): (Tally, World)
    requires forall k :: k in keys ==> k in labels.items
  {
    if |keys| == 0 then (t, w)
    else
      var (t1, w1) := WriteGroups(env, labels, keys[..|keys| - 1], t, w);
      WriteGroup(env, labels, keys[|keys| - 1], t1, w1)
  }

  /** Where `_write_ip_labels` stands: still going, or stopped by an
      exception it does not catch. */
  datatype Progress = Running(tally: Tally, world: World) | Aborted(error: string, world: World)

  /** A scanned data source with its counter already bumped: nothing when it
      has no groups, otherwise one session that writes the groups in
      insertion order and is closed afterwards. */
  function WriteLabels(env: Env, ds: SmbSource, labels: IpLabels, t: Tally, w: World): Progress
    requires WellFormed(labels)
  {
    if labels.IsEmpty() then Running(t, w)
    else
      var (ok, w1) := ConnectOp(w, CredsOf(ds));
      if !ok then Aborted(ConnectFailed, w1)
      else
        var (t2, w2) := WriteGroups(env, labels, labels.keys, t, w1);
        Running(t2, CloseOp(w2))
  }

  /** One data source: counted, scanned, then its groups written. */
  function WriteSource(api: BigID, env: Env, ds: SmbSource, t: Tally, w: World): Progress
  {
    match IpLabelsOf(api, env, ds)
    case Failure(e) => Aborted(e, w)
    case Success(labels) => WriteLabels(env, ds, labels, t.(sources := t.sources + 1), w)
  }

  /** The data sources in order; an uncaught exception stops the rest. */
  function WriteAll(api: BigID, env: Env, srcs: seq<SmbSource>, w: World): Progress
  {
    if |srcs| == 0 then Running(Tally(0, 0, 0), w)
    else
      match WriteAll(api, env, srcs[..|srcs| - 1], w)
      case Aborted(e, w1) => Aborted(e, w1)
      case Running(t, w1) => WriteSource(api, env, srcs[|srcs| - 1], t, w1)
  }

  /** The end of `_write_ip_labels`: no data source, or any error, is an
      `ExecutionError`; the message names the errors and the sidecars written. */
  function WriteVerdict(p: Progress): (Option<Fault>, World)
  {
    match p
    case Aborted(e, w) => (Some(Raised(e)), w)
    case Running(t, w) =>
      if t.sources == 0 then (Some(ExecutionError(HTTP_400, "No data sources processed")), w)
      else if t.errors > 0 then
        (Some(ExecutionError(HTTP_400, "Failed to write " + IntText(t.errors) + " of " + IntText(t.written) + " files")), w)
      else (None, w)
  }

  /** Where `_verify_config` stands. */
  datatype Run = Going(world: World) | Stopped(error: string, world: World)

  /** The i-th data source: an SMB one is connected to, then the probe is
      written to and deleted from the share, and the session is closed (also
      when the write or delete raises). */
  function VerifySource(env: Env, i: nat, ds: SmbSource, w: World): Run
  {
    if ds.kind != "smb" then Going(w)
    else
      var (ok, w1) := ConnectOp(w, CredsOf(ds));
      if !ok then Stopped(ConnectFailed, w1)
      else
        var (wrote, w2) := WriteFileOp(w1, VerifyShare, env.probe(i), ProbeData);
        if !wrote then Stopped(env.remoteError, CloseOp(w2))
        else
          var (deleted, w3) := DeleteFileOp(w2, VerifyShare, env.probe(i));
          if !deleted then Stopped(env.remoteError, CloseOp(w3))
          else Going(CloseOp(w3))
  }

  /** The data sources in order; the first exception stops the rest. */
  function VerifyAll(env: Env, srcs: seq<SmbSource>, w: World): Run
  {
    if |srcs| == 0 then Going(w)
    else
      match VerifyAll(env, srcs[..|srcs| - 1], w)
      case Stopped(e, w1) => Stopped(e, w1)
      case Going(w1) => VerifySource(env, |srcs| - 1, srcs[|srcs| - 1], w1)
  }

  function VerifyVerdict(r: Run): (Option<string>, World)
  {
    match r
    case Stopped(e, w) => (Some(e), w)
    case Going(w) => (None, w)
  }

  /** `execute()`: dispatch on the action name. */
  function ExecuteSpec(api: BigID, env: Env, w: World): (Outcome, World)
  {
    if env.actionName == "Encrypt" then
      var (err, w1) := WriteVerdict(WriteAll(api, env, env.sources, w));
      (if err.Some? then Failed(err.value) else Completed(env.completion), w1)
    else if env.actionName == "Verify Config" then
      var (err, w1) := VerifyVerdict(VerifyAll(env, env.sources, w));
      (if err.Some? then Failed(Raised(err.value)) else Completed(env.completion), w1)
    else
      (Failed(ExecutionError(HTTP_400, "unrecognized action name: " + env.actionName)), w)
  }

  /** One more group is one more `WriteGroup`. */
  lemma WriteGroupsStep(env: Env, labels: IpLabels, keys: seq<Key>, j: nat, t: Tally, w: World)
    requires j < |keys|
    requires forall k :: k in keys ==> k in labels.items
    ensures keys[j] in labels.items
    ensures WriteGroups(env, labels, keys[..j + 1], t, w) ==
      WriteGroup(env, labels, keys[j], WriteGroups(env, labels, keys[..j], t, w).0, WriteGroups(env, labels, keys[..j], t, w).1)
  {
    assert keys[..j + 1][..j] == keys[..j];
  }

  /** Once stopped, `_write_ip_labels` stays stopped. */
  lemma {:induction false} AbortSticks(api: BigID, env: Env, srcs: seq<SmbSource>, k: nat, w: World)
    requires k <= |srcs| && WriteAll(api, env, srcs[..k], w).Aborted?
    ensures WriteAll(api, env, srcs, w) == WriteAll(api, env, srcs[..k], w)
    decreases |srcs|
  {
    if k < |srcs| {
      assert srcs[..|srcs| - 1][..k] == srcs[..k];
      AbortSticks(api, env, srcs[..|srcs| - 1], k, w);
    } else {
      assert srcs[..k] == srcs;
    }
  }

  /** Once stopped, `_verify_config` stays stopped. */
  lemma {:induction false} StopSticks(env: Env, srcs: seq<SmbSource>, k: nat, w: World)
    requires k <= |srcs| && VerifyAll(env, srcs[..k], w).Stopped?
    ensures VerifyAll(env, srcs, w) == VerifyAll(env, srcs[..k], w)
    decreases |srcs|
  {
    if k < |srcs| {
      assert srcs[..|srcs| - 1][..k] == srcs[..k];
      StopSticks(env, srcs[..|srcs| - 1], k, w);
    } else {
      assert srcs[..k] == srcs;
    }
  }

  class Executor {
    const api: BigID
    const env: Env
    /** The file servers the data sources live on. */
    const server: SmbServer

    constructor (api: BigID, env: Env, server: SmbServer)
      ensures this.api == api && this.env == env && this.server == server
    {
      this.api, this.env, this.server := api, env, server;
    }

    /** `execute()`. */
    method Execute() returns (r: Outcome)
      modifies server
      ensures (r, server.State()) == ExecuteSpec(api, env, old(server.State()))
    {
      if env.actionName == "Encrypt" {
        var err := WriteIpLabels();
        if err.Some? {
          return Failed(err.value);
        }
      } else if env.actionName == "Verify Config" {
        var err := VerifyConfig();
        if err.Some? {
          return Failed(Raised(err.value));
        }
      } else {
        return Failed(ExecutionError(HTTP_400, "unrecognized action name: " + env.actionName));
      }
      return Completed(env.completion);
    }

    /** `_verify_config()`: the `repr` of the exception that stops it, if any. */
    method VerifyConfig() returns (err: Option<string>)
      modifies server
      ensures (err, server.State()) == VerifyVerdict(VerifyAll(env, env.sources, old(server.State())))
    {
      ghost var w0 := server.State();
      for i := 0 to |env.sources|
        invariant VerifyAll(env, env.sources[..i], w0) == Going(server.State())
      {
        assert env.sources[..i + 1][..i] == env.sources[..i];
        var ds := env.sources[i];
        if ds.kind == "smb" {
          var share := VerifyShare;
          var ok := server.Connect(CredsOf(ds));
          if !ok {
            StopSticks(env, env.sources, i + 1, w0);
            return Some(ConnectFailed);
          }
          var filename := env.probe(i);
          var wrote := server.WriteFile(share, filename, ProbeData);
          if !wrote {
            server.Close();
            StopSticks(env, env.sources, i + 1, w0);
            return Some(env.remoteError);
          }
          var deleted := server.DeleteFile(share, filename);
          server.Close();
          if !deleted {
            StopSticks(env, env.sources, i + 1, w0);
            return Some(env.remoteError);
          }
        }
      }
      assert env.sources[..|env.sources|] == env.sources;
      return None;
    }

    /** `_get_ip_labels(ds)`: the rows are visited in order and each one that
        survives every check is stored. */
    method GetIpLabels(ds: SmbSource) returns (r: Result<IpLabels, string>)
      ensures r == IpLabelsOf(api, env, ds)
    {
      var scan := env.catalog(api.Get(ScanEndpoint(ds.name)).url);
      if scan.totalRowsCounter.None? {
        return Failure(KeyErrorText("totalRowsCounter"));
      }
      if !env.regex.compiles(ds.labelFilter) {
        return Failure(env.regex.error(ds.labelFilter));
      }
      var f := FilterOf(env, ds);
      var rows := if scan.results.Some? then scan.results.value else [];
      var ipLabels: IpLabels := Empty();
      for i := 0 to |rows|
        invariant ipLabels == Aggregate(rows[..i], f)
      {
        AggregateStep(rows, f, i);
        var entry := ClassifyRow(rows[i], f);
        if entry.Some? {
          ipLabels := Insert(ipLabels, entry);
        }
      }
      assert rows[..|rows|] == rows;
      return Success(ipLabels);
    }

    /** The body of the row loop of `_get_ip_labels`: each `continue` (and
        each exception the loop catches) skips the row. */
    static method ClassifyRow(row: Row, f: RowFilter) returns (e: Option<Aggregation.Entry>)
      ensures e == Classify(row, f)
    {
      if row.attribute.None? {
        return None;
      }
      var kept := FilterLabels(row.attribute.value, f);
      if kept == [] {
        return None;
      }
      if row.fullObjectName.None? {
        return None;
      }
      var full := PurePath.Parts(row.fullObjectName.value);
      if f.path != "" && PurePath.RelativeTo(full, PurePath.Parts(f.path)).None? {
        return None;
      }
      if row.containerName.None? {
        return None;
      }
      var share := row.containerName.value;
      var rel := PurePath.RelativeTo(full, PurePath.Parts(share));
      if rel.None? {
        return None;
      }
      var parent := (share, DirText(rel.value));
      if row.objectName.None? {
        return None;
      }
      return Some(Aggregation.Entry(parent, row.objectName.value, kept));
    }

    /** `_write_ip_labels()`: the exception it raises, if any. */
    method WriteIpLabels() returns (err: Option<Fault>)
      modifies server
      ensures (err, server.State()) == WriteVerdict(WriteAll(api, env, env.sources, old(server.State())))
    {
      ghost var w0 := server.State();
      var errorCount, ipLabelsCount, dataSourceCount := 0, 0, 0;
      for i := 0 to |env.sources|
        invariant WriteAll(api, env, env.sources[..i], w0) ==
          Running(Tally(dataSourceCount, ipLabelsCount, errorCount), server.State())
      {
        assert env.sources[..i + 1][..i] == env.sources[..i];
        var failure;
        failure, dataSourceCount, ipLabelsCount, errorCount :=
          WriteDataSource(env.sources[i], dataSourceCount, ipLabelsCount, errorCount);
        if failure.Some? {
          AbortSticks(api, env, env.sources, i + 1, w0);
          return Some(Raised(failure.value));
        }
      }
      assert env.sources[..|env.sources|] == env.sources;
      if dataSourceCount == 0 {
        return Some(ExecutionError(HTTP_400, "No data sources processed"));
      }
      if errorCount > 0 {
        return Some(ExecutionError(HTTP_400, "Failed to write " + IntText(errorCount) + " of " + IntText(ipLabelsCount) + " files"));
      }
      return None;
    }

    /** One pass of the data-source loop of `_write_ip_labels`: the uncaught
        exception, or the updated counters. */
    method WriteDataSource(ds: SmbSource, sources: nat, written: nat, errors: nat)
      returns (failure: Option<string>, sources': nat, written': nat, errors': nat)
      modifies server
      ensures WriteSource(api, env, ds, Tally(sources, written, errors), old(server.State())) ==
        if failure.Some? then Aborted(failure.value, server.State())
        else Running(Tally(sources', written', errors'), server.State())
    {
      sources', written', errors' := sources + 1, written, errors;
      var labels := GetIpLabels(ds);
      if labels.Failure? {
        return Some(labels.error), sources', written', errors';
      }
      var ipLabels := labels.value;
      if ipLabels.IsEmpty() {
        return None, sources', written', errors';
      }
      var ok := server.Connect(CredsOf(ds));
      if !ok {
        return Some(ConnectFailed), sources', written', errors';
      }
      var t := WriteGroupsIn(ipLabels, Tally(sources', written', errors'));
      server.Close();
      failure, sources', written', errors' := None, t.sources, t.written, t.errors;
    }

    /** The body of the `with Smb(...)` block: every group in insertion order. */
    method WriteGroupsIn(ipLabels: IpLabels, t: Tally) returns (t': Tally)
      requires WellFormed(ipLabels)
      modifies server
      ensures (t', server.State()) == WriteGroups(env, ipLabels, ipLabels.keys, t, old(server.State()))
    {
      ghost var w1 := server.State();
      var ipLabelsCount, errorCount := t.written, t.errors;
      for j := 0 to |ipLabels.keys|
        invariant (t.(written := ipLabelsCount, errors := errorCount), server.State()) ==
          WriteGroups(env, ipLabels, ipLabels.keys[..j], t, w1)
      {
        WriteGroupsStep(env, ipLabels, ipLabels.keys, j, t, w1);
        var next := WriteOneGroup(ipLabels, ipLabels.keys[j], t.(written := ipLabelsCount, errors := errorCount));
        ipLabelsCount, errorCount := next.written, next.errors;
      }
      assert ipLabels.keys[..|ipLabels.keys|] == ipLabels.keys;
      t' := t.(written := ipLabelsCount, errors := errorCount);
    }

    /** One pass of the group loop: `is_dir`, then `atomic_write` of the
        encoded group; an exception from either is counted, not raised. */
    method WriteOneGroup(ipLabels: IpLabels, key: Key, t: Tally) returns (t': Tally)
      requires key in ipLabels.items
      modifies server
      ensures (t', server.State()) == WriteGroup(env, ipLabels, key, t, old(server.State()))
    {
      var isDir := server.IsDir(key.0, key.1);
      if isDir.None? {
        return t.(errors := t.errors + 1);
      }
      if !isDir.value {
        return t;
      }
      var written := server.AtomicWrite(key.0, key.1, SidecarName, env.encode(ipLabels.items[key]));
      if written {
        t' := t.(written := t.written + 1);
      } else {
        t' := t.(errors := t.errors + 1);
      }
    }
  }

  /** `Executor(params)`: building the BigID client may raise `KeyError`. */
  method NewExecutor(params: map<string, string>, env: Env, server: SmbServer) returns (r: Result<Executor, Fault>)
    ensures NewBigID(params).Failure? ==> r == Failure(Raised(NewBigID(params).error))
    ensures NewBigID(params).Success? ==>
      && r.Success? && fresh(r.value)
      && r.value.api == NewBigID(params).value && r.value.env == env && r.value.server == server
  {
    var api := NewBigID(params);
    if api.Failure? {
      return Failure(Raised(api.error));
    }
    var e := new Executor(api.value, env, server);
    return Success(e);
  }
}

=== FILE: execution_properties.dfy ===
/** What the executor guarantees, stated over the functions its methods are
    proved against: the counters it keeps, what a run without remote
    failures ends with, what the sidecars hold, that no session is left
    open, and that verifying a configuration leaves the shares as they were. */
module ExecutionProperties {
  import opened Wrappers
  import opened PyStr
  import opened PyDict
  import opened Aggregation
  import opened SmbSession
  import opened BigIdApi
  import opened Execution

  /** No remote operation still to come will raise. */
  predicate Reliable(w: World)
  {
    forall i :: 0 <= i < |w.faults| ==> !w.faults[i]
  }

  /** Where the sidecar of a group lands on the server `host`. */
  function SidecarAt(host: string, key: Key): Location
  {
    (host, key.0, FilePath(key.1, SidecarName))
  }

  /** Distinct groups never share a sidecar. */
  lemma SidecarInjective(host: string, k1: Key, k2: Key)
    requires SidecarAt(host, k1) == SidecarAt(host, k2)
    ensures k1 == k2
  {
    var a, b := FilePath(k1.1, SidecarName), FilePath(k2.1, SidecarName);
    assert |k1.1| == |k2.1|;
    assert a[..|k1.1|] == k1.1;
    assert b[..|k2.1|] == k2.1;
  }

  /** How many of the groups have their directory on the server. */
  function CountPresent(host: string, dirs: set<Location>, keys: seq<Key>): nat
  {
    if |keys| == 0 then 0
    else
      var k := keys[|keys| - 1];
      CountPresent(host, dirs, keys[..|keys| - 1]) + (if (host, k.0, k.1) in dirs then 1 else 0)
  }

  /** One group adds at most one to the written or the error counter, keeps
      the session and extends the call log. */
  lemma WriteGroupCounts(env: Env, labels: IpLabels, key: Key, t: Tally, w: World)
    requires key in labels.items
    ensures var (t', w') := WriteGroup(env, labels, key, t, w);
      && t'.sources == t.sources
      && t.written <= t'.written && t.errors <= t'.errors
      && (t'.written - t.written) + (t'.errors - t.errors) <= 1
      && w'.dirs == w.dirs && w'.host == w.host && w'.connected == w.connected
      && |w'.calls| > |w.calls| && w'.calls[..|w.calls|] == w.calls
  {
    var w1 := IsDirOp(w, key.0, key.1).1;
    assert w1.calls[..|w.calls|] == w.calls;
    if IsDirOp(w, key.0, key.1).0 == Some(true) {
      var w2 := AtomicWriteOp(w1, key.0, key.1, SidecarName, env.encode(labels.items[key])).1;
      assert w2.calls[..|w1.calls|] == w1.calls;
      PrefixOfPrefix(w.calls, w1.calls, w2.calls);
    }
  }

  /** A prefix of a prefix is a prefix. */
  lemma PrefixOfPrefix<T>(a: seq<T>, b: seq<T>, c: seq<T>)
    requires |a| <= |b| <= |c| && b[..|a|] == a && c[..|b|] == b
    ensures c[..|a|] == a
  {
    assert forall i :: 0 <= i < |a| ==> c[i] == b[i];
  }

  /** Writing the groups of one session: the source counter is untouched,
      each group adds at most one to the written or error counter, the
      session stays as it was, and each group sends at least one request. */
  lemma {:induction false} WriteGroupsCounts(env: Env, labels: IpLabels, keys: seq<Key>, t: Tally, w: World)
    requires forall k :: k in keys ==> k in labels.items
    ensures var (t', w') := WriteGroups(env, labels, keys, t, w);
      && t'.sources == t.sources
      && t.written <= t'.written && t.errors <= t'.errors
      && (t'.written - t.written) + (t'.errors - t.errors) <= |keys|
      && w'.dirs == w.dirs && w'.host == w.host && w'.connected == w.connected
      && |w'.calls| >= |w.calls| + |keys| && w'.calls[..|w.calls|] == w.calls
  {
    if |keys| > 0 {
      var init, last := keys[..|keys| - 1], keys[|keys| - 1];
      WriteGroupsCounts(env, labels, init, t, w);
      var r1 := WriteGroups(env, labels, init, t, w);
      WriteGroupCounts(env, labels, last, r1.0, r1.1);
      var r2 := WriteGroup(env, labels, last, r1.0, r1.1);
      assert r2 == WriteGroups(env, labels, keys, t, w);
      PrefixOfPrefix(w.calls, r1.1.calls, r2.1.calls);
    }
  }

  /** Without remote failures no error is counted, exactly the groups whose
      directory exists are written, and no failure is left to come. */
  lemma {:induction false} ReliableWriteGroups(env: Env, labels: IpLabels, keys: seq<Key>, t: Tally, w: World)
    requires forall k :: k in keys ==> k in labels.items
    requires Reliable(w)
    ensures var (t', w') := WriteGroups(env, labels, keys, t, w);
      && Reliable(w') && w'.dirs == w.dirs && w'.host == w.host
      && t'.errors == t.errors && t'.sources == t.sources
      && t'.written == t.written + CountPresent(w.host, w.dirs, keys)
  {
    if |keys| > 0 {
      var init := keys[..|keys| - 1];
      ReliableWriteGroups(env, labels, init, t, w);
      var (t1, w1) := WriteGroups(env, labels, init, t, w);
      assert Reliable(Issue(w1, IsDir(keys[|keys| - 1].0, keys[|keys| - 1].1)));
    }
  }

  /** After a session without remote failures, every group whose directory
      exists has its sidecar holding exactly the encoded group, and every
      location that is no group's sidecar is untouched. */
  lemma {:induction false} SidecarsHoldGroups(env: Env, labels: IpLabels, keys: seq<Key>, t: Tally, w: World)
    requires forall k :: k in keys ==> k in labels.items
    requires Reliable(w)
    ensures var w' := WriteGroups(env, labels, keys, t, w).1;
      && (forall k :: k in keys && (w.host, k.0, k.1) in w.dirs ==>
            SidecarAt(w.host, k) in w'.files && w'.files[SidecarAt(w.host, k)] == env.encode(labels.items[k]))
      && (forall loc :: (forall k :: k in keys ==> loc != SidecarAt(w.host, k)) ==>
            (loc in w'.files <==> loc in w.files) && (loc in w.files ==> w'.files[loc] == w.files[loc]))
  {
    if |keys| > 0 {
      var init, last := keys[..|keys| - 1], keys[|keys| - 1];
      SidecarsHoldGroups(env, labels, init, t, w);
      ReliableWriteGroups(env, labels, init, t, w);
      var (t1, w1) := WriteGroups(env, labels, init, t, w);
      var w2 := WriteGroups(env, labels, keys, t, w).1;
      assert w2 == WriteGroup(env, labels, last, t1, w1).1;
      assert (w.host, last.0, last.1) in w.dirs ==>
        w2.files == w1.files[SidecarAt(w.host, last) := env.encode(labels.items[last])];
      assert (w.host, last.0, last.1) !in w.dirs ==> w2.files == w1.files;
      forall k | k in keys && (w.host, k.0, k.1) in w.dirs
        ensures SidecarAt(w.host, k) in w2.files && w2.files[SidecarAt(w.host, k)] == env.encode(labels.items[k])
      {
        if k != last {
          assert k in init;
          if SidecarAt(w.host, k) == SidecarAt(w.host, last) {
            SidecarInjective(w.host, k, last);
          }
        }
      }
    }
  }

  /** Every data source the loop got through is counted, whatever happened to it. */
  lemma {:induction false} RunningCountsEverySource(api: BigID, env: Env, srcs: seq<SmbSource>, w: World)
    requires WriteAll(api, env, srcs, w).Running?
    ensures WriteAll(api, env, srcs, w).tally.sources == |srcs|
  {
    if |srcs| > 0 {
      var init := srcs[..|srcs| - 1];
      RunningCountsEverySource(api, env, init, w);
      var p := WriteAll(api, env, init, w);
      var ds := srcs[|srcs| - 1];
      if IpLabelsOf(api, env, ds).Success? && !IpLabelsOf(api, env, ds).value.IsEmpty() {
        var labels := IpLabelsOf(api, env, ds).value;
        var (ok, w1) := ConnectOp(p.world, CredsOf(ds));
        WriteGroupsCounts(env, labels, labels.keys, p.tally.(sources := p.tally.sources + 1), w1);
      }
    }
  }

  /** A data source without ip-labels opens no session and sends nothing. */
  lemma NoLabelsNoSession(api: BigID, env: Env, ds: SmbSource, t: Tally, w: World)
    requires IpLabelsOf(api, env, ds).Success? && IpLabelsOf(api, env, ds).value.IsEmpty()
    ensures WriteSource(api, env, ds, t, w) == Running(t.(sources := t.sources + 1), w)
  {
  }

  /** No run of "Encrypt" leaves a session open: when no session was open at
      the start, none is open at the end, whether the run finished or stopped. */
  lemma {:induction false} EncryptLeavesNoSessionOpen(api: BigID, env: Env, srcs: seq<SmbSource>, w: World)
    requires !w.connected
    ensures !WriteAll(api, env, srcs, w).world.connected
  {
    if |srcs| > 0 {
      var init := srcs[..|srcs| - 1];
      EncryptLeavesNoSessionOpen(api, env, init, w);
      var p := WriteAll(api, env, init, w);
      var ds := srcs[|srcs| - 1];
      if p.Running? && IpLabelsOf(api, env, ds).Success? && !IpLabelsOf(api, env, ds).value.IsEmpty() {
        var labels := IpLabelsOf(api, env, ds).value;
        var (ok, w1) := ConnectOp(p.world, CredsOf(ds));
        WriteGroupsCounts(env, labels, labels.keys, p.tally.(sources := p.tally.sources + 1), w1);
      }
    }
  }

  /** Without remote failures, writing the groups of one data source
      finishes, adds no error and leaves no failure to come. */
  lemma ReliableWriteLabels(env: Env, ds: SmbSource, labels: IpLabels, t: Tally, w: World)
    requires WellFormed(labels) && Reliable(w)
    ensures WriteLabels(env, ds, labels, t, w).Running?
    ensures WriteLabels(env, ds, labels, t, w).tally.sources == t.sources
    ensures WriteLabels(env, ds, labels, t, w).tally.errors == t.errors
    ensures Reliable(WriteLabels(env, ds, labels, t, w).world)
  {
    if !labels.IsEmpty() {
      var w1 := ConnectOp(w, CredsOf(ds)).1;
      assert ConnectOp(w, CredsOf(ds)).0 && Reliable(w1);
      ReliableWriteGroups(env, labels, labels.keys, t, w1);
    }
  }

  /** Without remote failures and with every catalog answer usable, every
      data source is processed and no error is counted. */
  lemma {:induction false} ReliableWriteAll(api: BigID, env: Env, srcs: seq<SmbSource>, w: World)
    requires Reliable(w)
    requires forall i :: 0 <= i < |srcs| ==> IpLabelsOf(api, env, srcs[i]).Success?
    ensures WriteAll(api, env, srcs, w).Running?
    ensures WriteAll(api, env, srcs, w).tally.sources == |srcs|
    ensures WriteAll(api, env, srcs, w).tally.errors == 0
    ensures Reliable(WriteAll(api, env, srcs, w).world)
  {
    if |srcs| > 0 {
      var init := srcs[..|srcs| - 1];
      assert forall i :: 0 <= i < |init| ==> init[i] == srcs[i];
      ReliableWriteAll(api, env, init, w);
      var p := WriteAll(api, env, init, w);
      var ds := srcs[|srcs| - 1];
      assert WriteAll(api, env, srcs, w) == WriteSource(api, env, ds, p.tally, p.world);
      var labels := IpLabelsOf(api, env, ds).value;
      ReliableWriteLabels(env, ds, labels, p.tally.(sources := p.tally.sources + 1), p.world);
    }
  }

  /** "Encrypt" without remote failures and with usable catalog answers
      completes exactly when there is a data source; with none it is
      refused with "No data sources processed". */
  lemma EncryptCompletesIffSources(api: BigID, env: Env, w: World)
    requires env.actionName == "Encrypt"
    requires Reliable(w)
    requires forall i :: 0 <= i < |env.sources| ==> IpLabelsOf(api, env, env.sources[i]).Success?
    ensures ExecuteSpec(api, env, w).0 == (if |env.sources| > 0 then Completed(env.completion)
      else Failed(ExecutionError(HTTP_400, "No data sources processed")))
  {
    ReliableWriteAll(api, env, env.sources, w);
  }

  /** "Encrypt" with no data sources is refused with "No data sources
      processed", whatever the file servers do, and sends nothing. */
  lemma NoSourcesRefused(api: BigID, env: Env, w: World)
    requires env.actionName == "Encrypt" && |env.sources| == 0
    ensures ExecuteSpec(api, env, w) == (Failed(ExecutionError(HTTP_400, "No data sources processed")), w)
  {
  }

  /** A counted error is always reported: when the loop finishes with an
      error, "Encrypt" is refused with the error count and the count of
      sidecars written, and nothing is reported complete. */
  lemma ErrorsAreReported(api: BigID, env: Env, w: World)
    requires env.actionName == "Encrypt"
    requires WriteAll(api, env, env.sources, w).Running?
    requires WriteAll(api, env, env.sources, w).tally.errors > 0
    ensures var t := WriteAll(api, env, env.sources, w).tally;
      ExecuteSpec(api, env, w).0 == Failed(ExecutionError(HTTP_400,
        "Failed to write " + IntText(t.errors) + " of " + IntText(t.written) + " files"))
  {
    RunningCountsEverySource(api, env, env.sources, w);
  }

  /** Any other action name is refused before anything is sent. */
  lemma UnknownActionRefused(api: BigID, env: Env, w: World)
    requires env.actionName != "Encrypt" && env.actionName != "Verify Config"
    ensures ExecuteSpec(api, env, w) ==
      (Failed(ExecutionError(HTTP_400, "unrecognized action name: " + env.actionName)), w)
  {
  }

  /** The probe of the i-th data source is on a location that held no file. */
  predicate FreshProbes(env: Env, srcs: seq<SmbSource>, w: World)
  {
    forall i :: 0 <= i < |srcs| ==> (srcs[i].server, VerifyShare, env.probe(i)) !in w.files
  }

  /** "Verify Config" without remote failures and with probe names not in
      use finishes, leaves every file as it was and closes every session. */
  lemma {:induction false} VerifyLeavesFilesIntact(env: Env, srcs: seq<SmbSource>, w: World)
    requires Reliable(w) && !w.connected
    requires FreshProbes(env, srcs, w)
    ensures VerifyAll(env, srcs, w).Going?
    ensures VerifyAll(env, srcs, w).world.files == w.files
    ensures !VerifyAll(env, srcs, w).world.connected
    ensures Reliable(VerifyAll(env, srcs, w).world)
  {
    if |srcs| > 0 {
      var n := |srcs| - 1;
      var init := srcs[..n];
      assert FreshProbes(env, init, w);
      VerifyLeavesFilesIntact(env, init, w);
      var w0 := VerifyAll(env, init, w).world;
      var ds := srcs[n];
      if ds.kind == "smb" {
        var w1 := ConnectOp(w0, CredsOf(ds)).1;
        assert Reliable(w1);
        var loc := (ds.server, VerifyShare, env.probe(n));
        assert loc !in w0.files;
        var w2 := WriteFileOp(w1, VerifyShare, env.probe(n), ProbeData).1;
        assert w2.files == w0.files[loc := ProbeData];
        assert Reliable(w2);
        var w3 := DeleteFileOp(w2, VerifyShare, env.probe(n)).1;
        assert w3.files == w0.files[loc := ProbeData] - {loc};
        assert w3.files == w0.files;
      }
    }
  }

  /** A data source of another kind is passed over without any request. */
  lemma VerifySkipsOtherKinds(env: Env, i: nat, ds: SmbSource, w: World)
    requires ds.kind != "smb"
    ensures VerifySource(env, i, ds, w) == Going(w)
  {
  }

  /** One group, case by case: a raising `is_dir` counts an error and writes
      nothing; a missing directory is skipped, counting nothing; a raising
      `atomic_write` counts an error and writes nothing; a write counts one
      sidecar and leaves exactly the encoded group in the sidecar. */
  lemma GroupOutcomes(env: Env, labels: IpLabels, key: Key, t: Tally, w: World)
    requires key in labels.items
    ensures var (t', w') := WriteGroup(env, labels, key, t, w);
      && w'.dirs == w.dirs && w'.host == w.host && w'.connected == w.connected
      && (NextFails(w) ==> t' == t.(errors := t.errors + 1) && w'.files == w.files)
      && (!NextFails(w) && (w.host, key.0, key.1) !in w.dirs ==> t' == t && w'.files == w.files)
      && (!NextFails(w) && (w.host, key.0, key.1) in w.dirs ==>
            var w1 := Issue(w, IsDir(key.0, key.1));
            && (NextFails(w1) ==> t' == t.(errors := t.errors + 1) && w'.files == w.files)
            && (!NextFails(w1) ==> t' == t.(written := t.written + 1))
            && (!NextFails(w1) ==> w'.files == w.files[SidecarAt(w.host, key) := env.encode(labels.items[key])]))
  {
  }

  /** A finished loop with at least one data source and no error completes. */
  lemma CleanRunCompletes(api: BigID, env: Env, w: World)
    requires env.actionName == "Encrypt" && |env.sources| > 0
    requires WriteAll(api, env, env.sources, w).Running?
    requires WriteAll(api, env, env.sources, w).tally.errors == 0
    ensures ExecuteSpec(api, env, w) == (Completed(env.completion), WriteAll(api, env, env.sources, w).world)
  {
    RunningCountsEverySource(api, env, env.sources, w);
  }

  /** Probing an SMB data source without remote failures sends exactly: a
      connect with its credentials, the write of the probe to "share-name",
      the delete of the same name there, and the close. */
  lemma ProbeCalls(env: Env, i: nat, ds: SmbSource, w: World)
    requires ds.kind == "smb" && Reliable(w)
    ensures VerifySource(env, i, ds, w).Going?
    ensures VerifySource(env, i, ds, w).world.calls == w.calls +
      [Connect(CredsOf(ds)), WriteFile(VerifyShare, env.probe(i), ProbeData), DeleteFile(VerifyShare, env.probe(i)), Close]
  {
    var w1 := ConnectOp(w, CredsOf(ds)).1;
    assert Reliable(w1);
    var w2 := WriteFileOp(w1, VerifyShare, env.probe(i), ProbeData).1;
    assert Reliable(w2);
  }
}

=== FILE: purepath.dfy ===
/** The part of `pathlib.PurePosixPath` the label scan uses: splitting a path
    into parts, `relative_to`, `parent` and `str`. */
module PurePath {
  import opened Wrappers
  import opened PyStr

  /** The first part of an absolute path: `/`, or `//` when the path starts
      with exactly two slashes. */
  predicate IsRoot(part: string)
  {
    part == "/" || part == "//"
  }

  /** The names of a split path: empty pieces and `.` are dropped. */
  function Names(pieces: seq<string>): (r: seq<string>)
    ensures forall i :: 0 <= i < |r| ==> r[i] != "" && r[i] != "." && r[i] in pieces
  {
    if |pieces| == 0 then []
    else (if pieces[0] == "" || pieces[0] == "." then [] else [pieces[0]]) + Names(pieces[1..])
  }

  /** `PurePosixPath(s).parts`: an optional root, then the names between slashes. */
  function Parts(s: string): (r: seq<string>)
    ensures forall i :: 0 <= i < |r| ==> r[i] != "" && r[i] != "."
    ensures forall i :: 0 < i < |r| ==> '/' !in r[i]
    ensures (|r| > 0 && IsRoot(r[0])) <==> (|s| > 0 && s[0] == '/')
  {
    var names := LStrip(s, '/');
    var lead := |s| - |names|;
    var root := if lead == 0 then [] else if lead == 2 then ["//"] else ["/"];
    var rest := Names(Split(names, '/'));
    assert forall i :: 0 <= i < |rest| ==> '/' !in rest[i];
    assert |rest| > 0 ==> '/' in "/" && '/' in "//" && !IsRoot(rest[0]);
    root + rest
  }

  predicate Absolute(p: seq<string>)
  {
    |p| > 0 && IsRoot(p[0])
  }

  /** `PurePosixPath(p).relative_to(base)`: `None` where pathlib raises
      `ValueError`. A base with no parts admits only relative paths. */
  function RelativeTo(p: seq<string>, base: seq<string>): (r: Option<seq<string>>)
    ensures r.Some? ==> p == base + r.value
  {
    if |base| == 0 then (if Absolute(p) then None else Some(p))
    else if |base| <= |p| && p[..|base|] == base then Some(p[|base|..])
    else None
  }

  /** `relative_to` compares whole parts: a path is under a non-empty base
      exactly when the base's parts begin the path's parts. */
  lemma RelativeToWholeParts(p: seq<string>, base: seq<string>)
    requires |base| > 0
    ensures RelativeTo(p, base).Some? <==> (|base| <= |p| && forall i :: 0 <= i < |base| ==> p[i] == base[i])
  {
    if |base| <= |p| && (forall i :: 0 <= i < |base| ==> p[i] == base[i]) {
      assert p[..|base|] == base;
    }
  }

  /** `str(PurePosixPath(*rel).parent)` for a relative path: `.` for a path
      of at most one part, otherwise every part but the last, joined by `/`. */
  function ParentText(rel: seq<string>): string
  {
    if |rel| <= 1 then "." else Join(rel[..|rel| - 1], "/")
  }

  /** A plain name: what a path part between slashes can be. */
  predicate IsName(x: string)
  {
    x != "" && x != "." && '/' !in x
  }

  lemma {:induction false} NamesKeepsNames(pieces: seq<string>)
    requires forall i :: 0 <= i < |pieces| ==> IsName(pieces[i])
    ensures Names(pieces) == pieces
  {
    if |pieces| > 0 {
      NamesKeepsNames(pieces[1..]);
      assert [pieces[0]] + pieces[1..] == pieces;
    }
  }

  /** Names joined by `/` parse back into the same parts. */
  lemma PartsOfJoinedNames(names: seq<string>)
    requires forall i :: 0 <= i < |names| ==> IsName(names[i])
    ensures Parts(Join(names, "/")) == names
  {
    if |names| == 0 {
      return;
    }
    var s := Join(names, "/");
    SplitJoin(names, '/');
    NamesKeepsNames(names);
    if |names| > 1 {
      assert s == names[0] + "/" + Join(names[1..], "/");
    }
    assert s[0] == names[0][0] != '/';
    assert LStrip(s, '/') == s;
  }

  /** Filtering on `share/path` admits `share/path/to/file.txt`. */
  lemma PathFilterAdmitsSubdirectory(kept: seq<string>, filter: seq<string>)
    requires kept == ["share", "path", "to", "file.txt"]
    requires filter == ["share", "path"]
    ensures RelativeTo(Parts(Join(kept, "/")), Parts(Join(filter, "/"))) == Some(["to", "file.txt"])
  {
    assert IsName("share") && IsName("path") && IsName("to") && IsName("file.txt");
    PartsOfJoinedNames(kept);
    PartsOfJoinedNames(filter);
    assert kept[..2] == filter;
    assert kept[2..] == ["to", "file.txt"];
  }

  /** Filtering on `share/path` does not admit `share/path2/file.txt`. */
  lemma PathFilterRejectsSibling(other: seq<string>, filter: seq<string>)
    requires other == ["share", "path2", "file.txt"]
    requires filter == ["share", "path"]
    ensures RelativeTo(Parts(Join(other, "/")), Parts(Join(filter, "/"))).None?
  {
    assert IsName("share") && IsName("path") && IsName("path2") && IsName("file.txt");
    PartsOfJoinedNames(other);
    PartsOfJoinedNames(filter);
    assert other[..2][1] != filter[1];
  }
}

=== FILE: pydict.dfy ===
/** A Python `dict`: a finite map that remembers the order in which its keys
    were first inserted. Assigning to an existing key replaces the value and
    keeps the key's position. */
module PyDict {

  datatype Dict<K, V> = Dict(keys: seq<K>, items: map<K, V>) {

    /** Keys are listed once each, and exactly the keys of `items` are listed. */
    ghost predicate Valid() {
      && (forall i, j :: 0 <= i < j < |keys| ==> keys[i] != keys[j])
      && (forall k :: k in items ==> k in keys)
      && (forall i :: 0 <= i < |keys| ==> keys[i] in items)
    }

    /** `d[k] = v`. */
    function Put(k: K, v: V): (r: Dict<K, V>)
      requires Valid()
      ensures r.Valid()
      ensures r.items == items[k := v]
      ensures k in items ==> r.keys == keys
      ensures k !in items ==> r.keys == keys + [k]
    {
      if k in items then Dict(keys, items[k := v]) else Dict(keys + [k], items[k := v])
    }

    predicate IsEmpty()
    {
      |keys| == 0
    }
  }

  function Empty<K, V>(): (r: Dict<K, V>)
    ensures r.Valid() && r.IsEmpty() && r.items == map[]
  {
    Dict([], map[])
  }

  /** An empty listing means an empty map. */
  lemma EmptyHasNoItems<K, V>(d: Dict<K, V>)
    requires d.Valid()
    ensures d.IsEmpty() <==> d.items == map[]
  {
    if !d.IsEmpty() {
      assert d.keys[0] in d.items;
    }
  }
}

=== FILE: pystr.dfy ===
/** The few Python `str` operations the service relies on, over `seq<char>`. */
module PyStr {

  /** `s.split(sep)` for a one-character separator: every occurrence splits,
      and the empty string gives one empty piece. */
  function Split(s: string, sep: char): (r: seq<string>)
    ensures |r| >= 1
    ensures forall i :: 0 <= i < |r| ==> sep !in r[i]
  {
    if |s| == 0 then [""]
    else
      var rest := Split(s[1..], sep);
      assert s == [s[0]] + s[1..];
      if s[0] == sep then [""] + rest
      else [[s[0]] + rest[0]] + rest[1..]
  }

  /** `sep.join(pieces)`. */
  function Join(pieces: seq<string>, sep: string): (r: string)
  {
    if |pieces| == 0 then ""
    else if |pieces| == 1 then pieces[0]
    else pieces[0] + sep + Join(pieces[1..], sep)
  }

  /** Joining the pieces of a split gives the original string back. */
  lemma {:induction false} JoinSplit(s: string, sep: char)
    ensures Join(Split(s, sep), [sep]) == s
  {
    if |s| > 0 {
      var rest := Split(s[1..], sep);
      JoinSplit(s[1..], sep);
      assert s == [s[0]] + s[1..];
      if s[0] == sep {
        assert Split(s, sep) == [""] + rest;
        assert Join([""] + rest, [sep]) == "" + [sep] + Join(rest, [sep]);
      } else if |rest| == 1 {
        assert Split(s, sep) == [[s[0]] + rest[0]];
      } else {
        assert Split(s, sep) == [[s[0]] + rest[0]] + rest[1..];
        calc {
          Join(Split(s, sep), [sep]);
          ([s[0]] + rest[0]) + [sep] + Join(rest[1..], [sep]);
          [s[0]] + (rest[0] + [sep] + Join(rest[1..], [sep]));
          [s[0]] + Join(rest, [sep]);
        }
      }
    }
  }

  /** Splitting `x + sep + y`, where `x` holds no separator, peels off `x`. */
  lemma {:induction false} SplitAtFirst(x: string, y: string, sep: char)
    requires sep !in x
    ensures Split(x + [sep] + y, sep) == [x] + Split(y, sep)
  {
    if |x| > 0 {
      var z := x + [sep] + y;
      SplitAtFirst(x[1..], y, sep);
      assert z[0] == x[0] != sep;
      assert z[1..] == x[1..] + [sep] + y;
      var rest := Split(z[1..], sep);
      assert rest == [x[1..]] + Split(y, sep);
      assert Split(z, sep) == [[z[0]] + rest[0]] + rest[1..];
      assert [x[0]] + x[1..] == x;
    } else {
      assert x + [sep] + y == [sep] + y;
      assert ([sep] + y)[1..] == y;
    }
  }

  /** A string without the separator splits into itself. */
  lemma {:induction false} SplitNoSep(x: string, sep: char)
    requires sep !in x
    ensures Split(x, sep) == [x]
  {
    if |x| > 0 {
      SplitNoSep(x[1..], sep);
      assert x == [x[0]] + x[1..];
    }
  }

  /** Splitting a join of separator-free pieces gives the pieces back. */
  lemma {:induction false} SplitJoin(pieces: seq<string>, sep: char)
    requires |pieces| >= 1
    requires forall i :: 0 <= i < |pieces| ==> sep !in pieces[i]
    ensures Split(Join(pieces, [sep]), sep) == pieces
  {
    if |pieces| == 1 {
      SplitNoSep(pieces[0], sep);
    } else {
      SplitJoin(pieces[1..], sep);
      SplitAtFirst(pieces[0], Join(pieces[1..], [sep]), sep);
      assert [pieces[0]] + pieces[1..] == pieces;
    }
  }

  /** `s.lstrip(c)` for one character: drops every leading `c`. */
  function LStrip(s: string, c: char): (r: string)
    ensures |r| <= |s| && r == s[|s| - |r|..]
    ensures |r| == 0 || r[0] != c
    ensures forall i :: 0 <= i < |s| - |r| ==> s[i] == c
  {
    if |s| > 0 && s[0] == c then LStrip(s[1..], c) else s
  }

  /** `s.replace(a, b)` for single characters. */
  function Replace(s: string, a: char, b: char): (r: string)
    ensures |r| == |s|
    ensures forall i :: 0 <= i < |s| ==> r[i] == (if s[i] == a then b else s[i])
  {
    if |s| == 0 then "" else [if s[0] == a then b else s[0]] + Replace(s[1..], a, b)
  }

  /** `str(n)` for a non-negative integer: its decimal digits, most
      significant first, without leading zeros. */
  function IntText(n: nat): (r: string)
    ensures |r| >= 1
    ensures forall i :: 0 <= i < |r| ==> '0' <= r[i] <= '9'
    ensures |r| > 1 ==> r[0] != '0'
  {
    if n < 10 then [('0' as int + n) as char]
    else IntText(n / 10) + [('0' as int + n % 10) as char]
  }

  /** The value of a string of decimal digits, `int(s)`. */
  function DigitsValue(s: string): nat
    requires forall i :: 0 <= i < |s| ==> '0' <= s[i] <= '9'
  {
    if |s| == 0 then 0 else 10 * DigitsValue(s[..|s| - 1]) + (s[|s| - 1] as int - '0' as int)
  }

  /** Reading the decimal text back gives the number: `int(str(n)) == n`. */
  lemma {:induction false} IntTextRoundTrip(n: nat)
    ensures DigitsValue(IntText(n)) == n
  {
    if n >= 10 {
      IntTextRoundTrip(n / 10);
      var r := IntText(n);
      assert r[..|r| - 1] == IntText(n / 10);
    }
  }

  /** Distinct numbers have distinct decimal texts. */
  lemma IntTextInjective(m: nat, n: nat)
    requires IntText(m) == IntText(n)
    ensures m == n
  {
    IntTextRoundTrip(m);
    IntTextRoundTrip(n);
  }
}

=== FILE: smb_session.dfy ===
/** The remote file share as the executor sees it through an `Smb` session:
    connect, `is_dir`, `atomic_write`, `write_file`, `delete_file`, and the
    close that leaving the `with` block performs. The transport itself is not
    modelled; any remote operation may raise, as scripted by `faults`. */
module SmbSession {
  import opened Wrappers

  /** One octet. */
  newtype Byte = x: int | 0 <= x < 256

  type Bytes = seq<Byte>

  /** What a session is opened with: `Smb(username, password, server, domain)`. */
  datatype Creds = Creds(username: string, password: string, server: string, domain: string)

  /** One request the service sends to the file server. */
  datatype Call =
    | Connect(creds: Creds)
    | IsDir(share: string, path: string)
    | AtomicWrite(share: string, path: string, name: string, data: Bytes)
    | WriteFile(share: string, path: string, data: Bytes)
    | DeleteFile(share: string, path: string)
    | Close

  /** A place on some file server: (server address, share, path in the share). */
  type Location = (string, string, string)

  /** The file servers as far as the service can observe them. `host` is the
      server the latest session connected to. `faults` decides the fate of
      the coming remote operations in order: an operation raises when the
      head is `true`; once the script is used up every operation succeeds.
      `calls` records every request sent. */
  datatype World = World(
    dirs: set<Location>,
    files: map<Location, Bytes>,
    host: string,
    faults: seq<bool>,
    connected: bool,
    calls: seq<Call>)

  /** Whether the next remote operation raises. */
  predicate NextFails(w: World)
  {
    |w.faults| > 0 && w.faults[0]
  }

  /** Sending a request: it is recorded and consumes one scripted fate. */
  function Issue(w: World, c: Call): World
  {
    w.(faults := if |w.faults| > 0 then w.faults[1..] else [], calls := w.calls + [c])
  }

  /** Where `atomic_write(share, path, name, data)` leaves the file. */
  function FilePath(path: string, name: string): string
  {
    path + "/" + name
  }

  /** Entering `with Smb(...)`: `RuntimeError` when the connection is refused. */
  function ConnectOp(w: World, c: Creds): (bool, World)
  {
    var ok := !NextFails(w);
    (ok, Issue(w, Connect(c)).(host := c.server, connected := ok))
  }

  /** `is_dir`: `None` when the call raises, else whether the directory exists. */
  function IsDirOp(w: World, share: string, path: string): (Option<bool>, World)
  {
    if NextFails(w) then (None, Issue(w, IsDir(share, path)))
    else (Some((w.host, share, path) in w.dirs), Issue(w, IsDir(share, path)))
  }

  /** `atomic_write`: on success the target holds exactly the new bytes. */
  function AtomicWriteOp(w: World, share: string, path: string, name: string, data: Bytes): (bool, World)
  {
    var w' := Issue(w, AtomicWrite(share, path, name, data));
    if NextFails(w) then (false, w')
    else (true, w'.(files := w.files[(w.host, share, FilePath(path, name)) := data]))
  }

  /** `write_file`: stores the bytes at the path. */
  function WriteFileOp(w: World, share: string, path: string, data: Bytes): (bool, World)
  {
    var w' := Issue(w, WriteFile(share, path, data));
    if NextFails(w) then (false, w')
    else (true, w'.(files := w.files[(w.host, share, path) := data]))
  }

  /** `delete_file`: raises when the call fails or there is no such file. */
  function DeleteFileOp(w: World, share: string, path: string): (bool, World)
  {
    var w' := Issue(w, DeleteFile(share, path));
    if NextFails(w) || (w.host, share, path) !in w.files then (false, w')
    else (true, w'.(files := w.files - {(w.host, share, path)}))
  }

  /** Leaving the `with` block closes the connection; this never raises. */
  function CloseOp(w: World): World
  {
    w.(connected := false, calls := w.calls + [Close])
  }

  /** The file server a session talks to, updated in place by each request. */
  class SmbServer {
    var dirs: set<Location>
    var files: map<Location, Bytes>
    var host: string
    var faults: seq<bool>
    var connected: bool
    var calls: seq<Call>

    function State(): World
      reads this
    {
      World(dirs, files, host, faults, connected, calls)
    }

    constructor (w: World)
      ensures State() == w
    {
      dirs, files, host, faults, connected, calls := w.dirs, w.files, w.host, w.faults, w.connected, w.calls;
    }

    /** Records the request and pops the scripted fate it used. */
    method Send(c: Call) returns (fails: bool)
      modifies this
      ensures fails == NextFails(old(State()))
      ensures State() == Issue(old(State()), c)
    {
      fails := |faults| > 0 && faults[0];
      if |faults| > 0 {
        faults := faults[1..];
      }
      calls := calls + [c];
    }

    method Connect(c: Creds) returns (ok: bool)
      modifies this
      ensures (ok, State()) == ConnectOp(old(State()), c)
    {
      var fails := Send(Call.Connect(c));
      ok := !fails;
      host, connected := c.server, ok;
    }

    method IsDir(share: string, path: string) returns (r: Option<bool>)
      modifies this
      ensures (r, State()) == IsDirOp(old(State()), share, path)
    {
      var found := (host, share, path) in dirs;
      var fails := Send(Call.IsDir(share, path));
      r := if fails then None else Some(found);
    }

    method AtomicWrite(share: string, path: string, name: string, data: Bytes) returns (ok: bool)
      modifies this
      ensures (ok, State()) == AtomicWriteOp(old(State()), share, path, name, data)
    {
      var fails := Send(Call.AtomicWrite(share, path, name, data));
      ok := !fails;
      if ok {
        files := files[(host, share, FilePath(path, name)) := data];
      }
    }

    method WriteFile(share: string, path: string, data: Bytes) returns (ok: bool)
      modifies this
      ensures (ok, State()) == WriteFileOp(old(State()), share, path, data)
    {
      var fails := Send(Call.WriteFile(share, path, data));
      ok := !fails;
      if ok {
        files := files[(host, share, path) := data];
      }
    }

    method DeleteFile(share: string, path: string) returns (ok: bool)
      modifies this
      ensures (ok, State()) == DeleteFileOp(old(State()), share, path)
    {
      var present := (host, share, path) in files;
      var fails := Send(Call.DeleteFile(share, path));
      ok := !fails && present;
      if ok {
        files := files - {(host, share, path)};
      }
    }

    method Close()
      modifies this
      ensures State() == CloseOp(old(State()))
    {
      connected := false;
      calls := calls + [Call.Close];
    }
  }
}

=== FILE: wrappers.dfy ===
/** Option and Result, the shapes Python's `None` and raised exceptions take in this model. */
module Wrappers {

  datatype Option<+T> = None | Some(value: T)

  /** `Failure` carries the text the raised exception would show. */
  datatype Result<+T, +E> = Success(value: T) | Failure(error: E)

  /** `repr(KeyError(key))`, the text of a failed `dict[key]` lookup. */
  function KeyErrorText(key: string): (r: string)
    ensures |r| == |key| + 12
    ensures r[..10] == "KeyError('" && r[10..10 + |key|] == key && r[10 + |key|..] == "')"
  {
    "KeyError('" + key + "')"
  }
}
